=== FILE: README.md ===
# django-tidb, modelled in Dafny

django-tidb is the Django database backend for TiDB, a MySQL-compatible
distributed database. Most of the backend delegates to Django's MySQL
backend or runs queries. This project models the part that decides things
on its own:

- how the server's `VERSION()` text becomes a release tuple;
- which capabilities and skipped-test groups follow from that tuple, the
  SQL mode and the session flags;
- how `EXPLAIN` prefixes are built and validated;
- the checks and column types of `BigAutoRandomField` and `VectorField`,
  and the text encoding of vectors;
- the schema editor's DDL decisions: a unique column added in two steps,
  the `AUTO_ID_CACHE` table option, the index predicate and the SQL
  templates;
- how introspection merges cursor descriptions with `information_schema`
  rows.

Python's own behaviour is modelled where the backend relies on it:

- `str.split`, `str.join`, `lstrip` and `upper`;
- `int()` on text, `repr()` and `sorted()`;
- tuple comparison, where a proper prefix is smaller;
- `x or y`, which treats `0` as absent;
- `s[1:-1]`;
- `template % mapping`.

Modules follow the source files:

| module | source |
|---|---|
| `Version` | `django_tidb/version.py` |
| `Base`, `Session` | `django_tidb/base.py` |
| `Features` | `django_tidb/features.py` |
| `Operations` | `django_tidb/operations.py` |
| `AutoRandom` | `django_tidb/fields/__init__.py` |
| `Vector` | `django_tidb/fields/vector.py` |
| `Schema` | `django_tidb/schema.py` |
| `Introspection` | `django_tidb/introspection.py` |
| `Results`, `Strings`, `Numbers`, `Lexicographic`, `PyValue`, `Formatting` | Python built-ins the above rely on |

Failures are `Result` values that carry the Python exception kind and its
message. Server queries are not performed: their rows are inputs. The
module-level `TiDBVersion` instance is passed in and returned as state.

## Model

| member | source | states |
|---|---|---|
| Version.Match | django_tidb/version.py:23-29 | Fewer than three `-` segments give "no match" with the state unchanged. Otherwise a success is always a match: the state has one integer per `.` part of the third segment (after stripping leading `v`), and the call succeeds iff every part is accepted by `int`. A failure raises the `ValueError` of the first part `int` rejects. |
| Version.ParseComponents | django_tidb/version.py:28 | Succeeds iff `int` accepts every part; then the tuple has one entry per part, each that part's `int` value. A failure carries the error of the first part `int` rejects, all parts before it being accepted. |
| Version.FreshParserUntilMatched | django_tidb/version.py:21-26 | A parser that never matched reports `(0, 0, 0)`, and an unmatched text keeps it. |
| Version.MatchVersionText | django_tidb/version.py:24-29 | Every text of the documented shape `<upstream>-<vendor>-v<a>.<b>...[-suffix]` yields exactly its release numbers, whatever the suffix. |
| Version.MatchBuildSuffixExample | django_tidb/version.py:17-29 | `5.7.25-TiDB-v5.1.0-64-gfb0eaf7b4` gives `(5, 1, 0)`. |
| Version.MatchPreReleaseExample | django_tidb/version.py:17-29 | `5.7.25-TiDB-v5.2.0-alpha-385-g0f0b06ab5` gives `(5, 2, 0)`. |
| Version.MatchEmptyComponentRaises | django_tidb/version.py:27-28 | A release whose dot-split after `lstrip("v")` has an empty part (a doubled, leading or trailing dot, or only `v`s) raises `int`'s `ValueError` rather than returning "no match". |
| Version.MatchEmptyPartExample | django_tidb/version.py:27-28 | `v5..0` raises `invalid literal for int() with base 10: ''`: the empty middle part is the first one rejected. |
| Version.MatchLetterComponentRaises | django_tidb/version.py:27-28 | A release part with letters raises `invalid literal for int() with base 10: 'x'`. |
| Version.MatchReportsFirstBadPart | django_tidb/version.py:28 | With release `x.y` the error quotes `x`: the generator stops at the first bad part. |
| Version.ParseComponentTexts | django_tidb/version.py:28 | The decimal text of each release number parses back to it. |
| Numbers.ParseInt | django_tidb/version.py:28 | `int(text)` succeeds iff the text, without surrounding tab, line feed, vertical tab, form feed, carriage return and space, is an optional sign followed by digit groups joined by single underscores. The value's magnitude is the digits' decimal value, and it is negative only after a `-`. Otherwise the error is `invalid literal for int() with base 10: ` followed by the text's `repr`, cut to 200 characters. |
| Numbers.ParseIntExamples | django_tidb/version.py:28 | ` +1_0 ` is 10, `007` is 7 and `-5` is -5. `1__0`, `_1` and `+-1` are rejected. |
| Numbers.SurroundingSpaceExamples | django_tidb/version.py:28 | A tab before a literal is skipped, and the separator 0x1c is not, so the text is rejected. |
| Numbers.Truncated | django_tidb/version.py:28 | The `.200` precision of `%.200R`: a prefix of at most the given length, and the whole text when it is short enough. |
| Numbers.InvalidLiteral | django_tidb/version.py:28 | `int()`'s `ValueError`: the fixed prefix, then at most 200 characters, which are the whole `repr` when it fits. |
| Numbers.IntToString | django_tidb/fields/__init__.py:90 | `str(i)`, as `%s` prints an integer option: non-empty, starting with `-` or a digit. `Numbers.ParseIntRoundTrip` reads it back. |
| Numbers.ParseIntRoundTrip | django_tidb/version.py:28 | `int(str(i)) == i` for every integer. |
| Numbers.ParseIntRejects | django_tidb/version.py:28 | The empty text and `v` are not integers. |
| Numbers.NatToString | django_tidb/fields/__init__.py:87-89 | `str(n)`: decimal digits without a leading zero whose value is `n`. |
| Strings.Split | django_tidb/version.py:24 | `split(sep)` returns at least one piece and no piece contains the separator. |
| Strings.JoinSplit | django_tidb/version.py:24 | Joining the pieces of a split with the separator gives back the text. |
| Strings.SplitJoin | django_tidb/base.py:105 | Splitting pieces joined by a separator they lack gives back the pieces. |
| Strings.SplitAtFirstSeparator | django_tidb/version.py:24 | A split cuts at the first separator and splits the rest. |
| Strings.LStripRepeat | django_tidb/version.py:27 | `lstrip("v")` removes every leading `v` and nothing else. |
| Strings.Strip | django_tidb/version.py:28 | The text `int()` parses: no longer than the input, and neither starting nor ending with a skipped whitespace character. |
| Strings.Upper | django_tidb/operations.py:34 | `upper()` maps each ASCII lower-case letter to upper case and keeps every other character. |
| Strings.UpperIdempotent | django_tidb/operations.py:27-34 | Upper-casing twice is upper-casing once. |
| Strings.Repr | django_tidb/base.py:96-98 | `%r` of a text is quoted with matching quotes. |
| Strings.ReprPlain | django_tidb/base.py:96-98 | Text without quotes, backslashes or control characters is shown in single quotes. |
| Strings.Sort | django_tidb/operations.py:38 | `sorted()` returns an ordered permutation of its input. |
| Strings.SortedUnique | django_tidb/operations.py:38 | Two ordered permutations of the same strings are equal, so `sorted()` is determined by its input. |
| Strings.StrTransitive | django_tidb/operations.py:38 | Code-point order on strings is transitive. |
| Strings.StrTotal | django_tidb/operations.py:38 | Any two strings are comparable. |
| Strings.StrAntisymmetric | django_tidb/operations.py:38 | Strings ordered both ways are equal. |
| Lexicographic.Less | django_tidb/features.py:212 | Python's tuple `<`: a tuple is never below an equal one. |
| Lexicographic.Transitive | django_tidb/features.py:45 | Tuple `<` is transitive. |
| Lexicographic.Trichotomy | django_tidb/features.py:45 | Two tuples are equal or one is smaller. |
| Lexicographic.Irreflexive | django_tidb/features.py:45 | No tuple is smaller than itself. |
| Lexicographic.AtLeastIsConverse | django_tidb/features.py:45 | `a >= b` holds exactly when `b <= a`. |
| Lexicographic.ProperPrefixIsLess | django_tidb/features.py:340-343 | A proper prefix is smaller, so `(6, 3) < (6, 3, 0)`. |
| Base.TidbVersion | django_tidb/base.py:92-100 | An unmatched text raises the exception naming the text. A `ValueError` from `int` escapes. A successful match always gives the version tuple and state that `match` stored. |
| Base.GetDatabaseVersion | django_tidb/base.py:45-46 | Returns exactly `tidb_version`, failures included. |
| Base.DatabaseVersionOfVersionText | django_tidb/base.py:92-100 | A server reporting the documented shape has exactly its release numbers as its database version. |
| Base.UnknownVersionQuotesText | django_tidb/base.py:95-99 | The failure message is `Unable to determine Tidb version from version string '<text>'` for plain text. |
| Base.DataTypeCheckConstraints | django_tidb/base.py:48-60 | With column check constraints: the three positive integer fields get `>= 0` and JSON fields get `JSON_VALID`. Without them the map is empty. |
| Base.AdapterCheckConstraints | django_tidb/features.py:292-294 | Column check constraints are always supported, so the map has four entries. |
| Session.SqlMode | django_tidb/base.py:102-105 | A missing or empty mode gives no flags; otherwise a flag is in the set exactly when it is a comma-separated token. |
| Session.SqlModeOfFlags | django_tidb/base.py:105 | A mode written as comma-joined flags reads back as exactly those flags. |
| Features.Threshold | django_tidb/features.py:43-72 | Each gate's tuple is a `major.minor` pair or a `major.minor.0` triple, and none is below the oldest supported release `(5,)`. |
| Features.Enabled | django_tidb/features.py:43-72 | `tidb_version >= threshold` holds exactly when the threshold is at or below the release in tuple order. |
| Features.GateMonotone | django_tidb/features.py:43-72 | A version-gated capability a release has is kept by every later release. |
| Features.GateOnRelease | django_tidb/features.py:43-72 | The thresholds are `(6, 6, 0)` for foreign keys, `(6, 2, 0)` for transactions and savepoints, `(6, 3)` for JSON fields and `(5, 1)` for expression indexes. For a release `a.b.c` with `c >= 0`, each gate reduces to comparing `(a, b)` with the threshold's first two numbers. |
| Features.JsonFieldThreshold | django_tidb/features.py:338-343 | JSON fields are supported from `(6, 3)`, which is below `(6, 3, 0)`, and by no 6.2 release. |
| Features.CanIntrospectJsonField | django_tidb/features.py:345-347 | Never true: check constraints are not introspected. |
| Features.TestSkipReasons | django_tidb/features.py:74-256 | The four base groups are always skipped. `tidb4` iff the release is below `(5,)`. `auto_random` iff below `(6, 3)`. `tidb653` iff below `(6, 6)`. The `ONLY_FULL_GROUP_BY` group iff that flag is in the mode. The foreign-key group iff foreign keys are unsupported. Nothing else. |
| Features.SkipsShrinkWithRelease | django_tidb/features.py:191-255 | A later release under a mode with fewer flags never skips more groups. |
| Features.ForeignKeyGroupsTogether | django_tidb/features.py:223-255 | For a release `a.b.c`, `tidb653` and the foreign-key group are skipped together, exactly below 6.6. |
| Features.TwoPartReleaseSplitsForeignKeyGroups | django_tidb/features.py:223-255 | The two-part release `(6, 6)` skips the foreign-key group but not `tidb653`. |
| Features.CurrentReleaseSkipsBaseOnly | django_tidb/features.py:191-256 | From 6.6.0, without `ONLY_FULL_GROUP_BY`, only the base groups are skipped. |
| Features.Tidb4SkipsBelowMinimum | django_tidb/features.py:191 | The `tidb4` group is skipped exactly below `minimum_database_version`. |
| Operations.BigAutoRandomRangeIsSigned64 | django_tidb/operations.py:20-23 | The field's range holds exactly the integers a signed 64-bit column stores unchanged. |
| Operations.EffectiveFormat | django_tidb/operations.py:27-30 | A missing or empty format, or `TEXT` in any case, becomes `ROW`; any other format is kept as given. |
| Operations.UnknownOptions | django_tidb/operations.py:43-44 | The names left after `analyze` is taken out. |
| Operations.ExplainQueryPrefix | django_tidb/operations.py:25-51 | Succeeds iff the upper-cased format is supported and no option other than `analyze` is given. The format error takes precedence and lists the formats sorted. Unknown options are listed sorted. The prefix gains ` ANALYZE` iff `analyze` is truthy, then the format clause in the caller's spelling. |
| Operations.ExplainDefault | django_tidb/operations.py:27-51 | Without arguments the prefix ends with `FORMAT="ROW"`. |
| Operations.ExplainAcceptedFormat | django_tidb/operations.py:47-51 | A supported upper-case format gives `FORMAT="<f>"`, preceded by ` ANALYZE` when asked. |
| Operations.ExplainSupportedFormat | django_tidb/features.py:326-328 | Each of `TRADITIONAL`, `ROW`, `BRIEF`, `DOT`, `TIDB_JSON` is accepted as given, with or without `analyze`. |
| Operations.ExplainCaseInsensitive | django_tidb/operations.py:34-50 | A format is accepted iff its upper-case form is, and the clause keeps the caller's spelling. |
| Operations.ExplainFormatCheckedFirst | django_tidb/operations.py:33-45 | A bad format is reported even when unknown options are passed too. |
| Operations.ExplainRejectedFormat | django_tidb/operations.py:35-41 | An unsupported format raises `<F> is not a recognized format. Allowed formats: ` followed by the sorted list. |
| Operations.SortedExplainFormatsAreSorted | django_tidb/operations.py:38 | TiDB's formats sort as `BRIEF, DOT, ROW, TIDB_JSON, TRADITIONAL`. |
| Operations.ExplainUnsupportedFormatMessage | django_tidb/operations.py:35-41 | An unsupported format's error lists TiDB's five formats in that sorted order. |
| Operations.ExplainRejectsOption | django_tidb/operations.py:43-45 | An option other than `analyze` raises `Unknown options: <name>`. |
| Operations.ExplainUnknownOption | django_tidb/operations.py:43-45 | An unknown option with the default format raises `Unknown options: <name>`. |
| Operations.RegexLookup | django_tidb/operations.py:53-58 | `regex` gets `REGEXP BINARY`; every other lookup gets plain `REGEXP`. |
| PyValue.ToInt | django_tidb/fields/__init__.py:33 | `int(v)` raises `TypeError` exactly for `None` and objects that are neither a number, text nor bytes-like; integers pass unchanged; text goes through `int`'s parse (`Numbers.ParseInt`). |
| AutoRandom.Init | django_tidb/fields/__init__.py:10-19 | An option that is not passed is 5 for `shard_bits` and 64 for `range`; a passed one is kept as given. |
| AutoRandom.CheckInteger | django_tidb/fields/__init__.py:31-73 | Takes the result of `int()`. At most one error. None iff `int()` succeeds within the bounds. `TypeError` gives the "must define" error; a `ValueError` or an out-of-bounds value gives the "between" error. |
| AutoRandom.CheckShardBits | django_tidb/fields/__init__.py:31-51 | No error iff `int(shard_bits)` is from 1 to 15. "Must define" iff the value is `None` or an object that is neither a number, text nor bytes-like. Otherwise the "between 1 and 15" error. |
| AutoRandom.CheckRange | django_tidb/fields/__init__.py:53-73 | No error iff `int(range)` is from 32 to 64. "Must define" iff the value is `None` or an object that is neither a number, text nor bytes-like. Otherwise the "between 32 and 64" error. |
| AutoRandom.Check | django_tidb/fields/__init__.py:24-29 | Exactly the errors of the two checks: none iff both pass, one check's error alone when the other passes, and `[range error, shard-bits error]` when both fail. |
| AutoRandom.CheckReportsBoth | django_tidb/fields/__init__.py:24-29 | When both options are out of bounds, both "between" errors are reported, the range error first. |
| AutoRandom.DefaultFieldIsValid | django_tidb/fields/__init__.py:14-15 | The defaults pass both checks. |
| AutoRandom.CheckIntegerBounds | django_tidb/fields/__init__.py:31-73 | Integer options pass exactly within `[1, 15]` and `[32, 64]`, so 0, 16, 31 and 65 fail. Each is reported alone when the other is valid. |
| AutoRandom.CheckNoneIsMissing | django_tidb/fields/__init__.py:36-42 | `None` is reported as a missing option. |
| AutoRandom.CheckAcceptsDecimalText | django_tidb/fields/__init__.py:33 | The decimal text of an option is checked as the integer is. |
| AutoRandom.Deconstruct | django_tidb/fields/__init__.py:75-81 | Each option is in the keyword arguments iff it is not `None`, and its value there is the option itself. |
| AutoRandom.DeconstructRoundTrip | django_tidb/fields/__init__.py:75-81 | Rebuilding from the keyword arguments gives back each option that is not `None`; a `None` option comes back as its default. |
| AutoRandom.DbType | django_tidb/fields/__init__.py:83-90 | The column type is `bigint AUTO_RANDOM(...)`. |
| AutoRandom.DbTypeArguments | django_tidb/fields/__init__.py:83-90 | The clause holds one argument before 6.3 and two from 6.3 on, and they are the options' decimal texts, which read back as the integer options. |
| AutoRandom.DbTypeNamesRangeFrom63 | django_tidb/fields/__init__.py:85-89 | For a release `a.b.c`, the range is named exactly from 6.3 on, the release that also brings JSON fields. |
| AutoRandom.DefaultDbType | django_tidb/fields/__init__.py:83-90 | The defaults render as `bigint AUTO_RANDOM(5)` on 6.2 and `bigint AUTO_RANDOM(5, 64)` on 6.3. |
| Vector.Encode | django_tidb/fields/vector.py:11-29 | `None` passes through. An array must be one-dimensional and numeric. A given dimension must equal the length, else `expected <d> dimensions, not <n>`. It fails only for a bad array or a dimension mismatch. The text is the bracketed, comma-joined components. |
| Vector.Inner | django_tidb/fields/vector.py:39 | `s[1:-1]` drops exactly the first and last character, and is empty for shorter texts. |
| Vector.Decode | django_tidb/fields/vector.py:32-39 | `None` passes through. Text fails iff a comma-separated component is empty, with numpy's `could not convert string to float: ''`. Otherwise the components, none empty or holding a comma, joined by commas give back the text between the brackets. |
| Vector.DecodeEncode | django_tidb/fields/vector.py:29-39 | Decoding the encoding of a non-empty vector succeeds and gives back its components in order. |
| Vector.EmptyVector | django_tidb/fields/vector.py:29-39 | The empty vector encodes as `[]`, which does not decode: its one component is empty and raises. |
| Vector.EncodeThreeComponents | django_tidb/fields/vector.py:29 | `[1.0, 2.0, 3.0]` encodes as `[1.0,2.0,3.0]`. |
| Vector.GetPrepValue | django_tidb/fields/vector.py:98-99 | Fails only for a malformed numpy array, never on the dimension count. |
| Vector.DbType | django_tidb/fields/vector.py:85-88 | The type is exactly `vector<float>` iff no dimension count is set. |
| Vector.DbTypeDimensions | django_tidb/fields/vector.py:85-88 | `vector<float>(d)` carries `d` between its parentheses. |
| Vector.CheckDimensions | django_tidb/fields/vector.py:123-133 | An error iff a dimension count is set and lies outside `[1, 16000]`. |
| Vector.Deconstruct | django_tidb/fields/vector.py:79-83 | `dimensions` is a keyword argument iff it is set. |
| Vector.DeconstructRoundTrip | django_tidb/fields/vector.py:75-83 | Rebuilding from the keyword arguments gives the same dimension count. |
| Vector.FunctionName | django_tidb/fields/vector.py:230-243 | Each distance class's SQL function, all with the `VEC_` prefix. |
| Vector.FunctionNamesDistinct | django_tidb/fields/vector.py:230-243 | The four distance classes call four different SQL functions. |
| Vector.MakeDistance | django_tidb/fields/vector.py:215-227 | Without a vector the function takes one argument, the column. An expression is passed as given. Data is encoded into a literal, and encoding errors escape. |
| Vector.DistanceLiteralDecodes | django_tidb/fields/vector.py:223-227 | The literal a distance query carries decodes to the query vector. |
| Formatting.Format | django_tidb/fields/__init__.py:90 | `template % mapping`: a template without `%` is returned unchanged; a failure is a `KeyError` for a key the mapping lacks or a `ValueError`. |
| Formatting.FormatLiteral | django_tidb/schema.py:24-30 | Text without `%` is copied unchanged by `%` formatting. |
| Formatting.FormatPlaceholder | django_tidb/schema.py:24-30 | `%(key)s` is replaced by the key's text. |
| Formatting.FormatMissingKey | django_tidb/schema.py:24-30 | A placeholder for a missing key raises `KeyError`. |
| Schema.DeleteCheckStatement | django_tidb/schema.py:24-26 | The check-removal template renders as `ALTER TABLE <t> DROP CHECK <n>`. |
| Schema.DeleteCheckNeedsName | django_tidb/schema.py:24-26 | Without a constraint name the template raises `KeyError`. |
| Schema.RenameColumnStatement | django_tidb/schema.py:28-30 | The rename template renders as `ALTER TABLE <t> CHANGE <old> <new> <type>`. |
| Schema.SkipDefaultOnAlter | django_tidb/schema.py:32-37 | Defaults are skipped exactly for BLOB, TEXT and JSON columns. |
| Schema.FieldShouldBeIndexed | django_tidb/schema.py:43-51 | An index iff the field has `db_index`, is not unique, is not a constrained foreign key and is not a BLOB, TEXT or JSON column. |
| Schema.LimitedColumnsNotIndexed | django_tidb/schema.py:32-51 | A column whose default is skipped is never indexed. |
| Schema.IndexingExamples | tests/test_tidb_ddl.py:22-54 | An indexed `CharField` and an unconstrained foreign key are indexed; a constrained foreign key is not. |
| Schema.AddField | django_tidb/schema.py:53-62 | A unique field (`unique=True` or a primary key): the base add with `_unique` cleared, then the unique constraint, with `_unique` left set. Any other field: one base add. Only a primary key is unique during the base add, so no other column is added with its unique constraint. |
| Schema.PrimaryKeyBecomesUnique | django_tidb/schema.py:53-60 | A primary key without `unique=True` is added with the key, followed by its unique constraint, and its `_unique` ends up set. |
| Schema.AddFieldSameAsCombined | django_tidb/schema.py:53-62 | The two statements leave the table's columns and unique columns as one combined add would. |
| Schema.TableSql | django_tidb/schema.py:64-69 | Parameters never change. The text is unchanged iff the option is `None`; otherwise ` AUTO_ID_CACHE ` and the option's text are appended. |
| Schema.AutoIdCacheReadBack | django_tidb/schema.py:64-69 | An integer cache size reads back from the statement's tail. |
| Schema.AutoIdCacheTextPassesThrough | django_tidb/schema.py:66-68 | Text is not validated here; it reaches the server as written. |
| Introspection.Or | django_tidb/introspection.py:106-109 | `x or y`: `x` unless it is `None` or `0`, then `y`. |
| Introspection.InfoByName | django_tidb/introspection.py:91 | The map holds exactly the named columns, each mapped to one of its rows; the last row wins. |
| Introspection.InfoByNameKeepsLast | django_tidb/introspection.py:91 | A row no later row renames is the one kept. |
| Introspection.JsonConstraints | django_tidb/introspection.py:39-54 | Empty unless JSON fields can be introspected; otherwise exactly the returned names. |
| Introspection.MergeColumn | django_tidb/introspection.py:100-119 | Name, type code and nullability come from the cursor. Both sizes take `max_len` unless it is `None` or `0`, and precision and scale fall back the same way. The rest comes from `information_schema`. The JSON flag iff the name is constrained. |
| Introspection.GetTableDescription | django_tidb/introspection.py:100-120 | One merged record per described column, in order. The first column without a row raises `KeyError` for its name. |
| Introspection.NoJsonConstraintOnTiDB | django_tidb/features.py:345-347 | No column is ever reported with a JSON constraint. |
| Introspection.ZeroFallsBack | django_tidb/introspection.py:106-109 | A `0` size, precision or scale from `information_schema` is replaced by the cursor's. |

## Left out

- Queries and connections. `tidb_server_data`, the introspection queries and `cursor.execute` are not performed; their rows are inputs (`Session.ServerData`, `Introspection.InfoLine`, `Introspection.CursorColumn`).
- `cached_property` memoization. Each capability is a pure function of the release, the SQL mode and the session flags, which never change during a connection.
- The test identifiers inside `django_test_skips`. Only which reason keys are present is modelled.
- Constant capability flags no modelled operation reads. Examples: `atomic_transactions`, `has_select_for_update_*`, `supports_expression_defaults`, `update_can_self_select`, `supports_index_column_ordering`, `supports_default_in_lead_lag`, `test_collations`.
- Django internals: `super().add_field`, `_create_unique_sql`, `db_type_parameters`, `super().check()` and `super().deconstruct()`. `_is_limited_data_type` is a field attribute (`Schema.SchemaField.limitedDataType`). The base add and unique creation are the abstract steps `Schema.DdlStep`.
- `VectorIndex.create_sql`, which only assembles arguments for Django's `_create_index_sql`. Also left out: the form widget and form field, `to_python`, `from_db_value`, `validate`, `run_validators` and `value_to_string`.
- Numbers in vectors. numpy, `float()`, `str(float(v))` and the float32 parse in `decode_vector` are outside Dafny's integers. Components are their comma-free decimal texts (`Vector.FloatText`), and decoding returns those texts.
- Vector.Decode: a `bytes` value is not decoded from UTF-8, and an `ndarray` is not passed through. Inputs are already text. Of numpy's float conversion only the empty-component failure is modelled: a component such as `abc` is kept as text rather than rejected, because float parsing is not modelled.
- Vector.Encode: the numpy `ndim` and dtype checks are two flags on the array input.
- Vector.DbType: `dimensions` is an integer or `None` (and likewise for `Vector.CheckDimensions` and `Vector.Deconstruct`). Other values are not modelled. For example, text makes `%d` in `db_type` and the `<` in `_check_dimensions` raise `TypeError`, and `%d` truncates a float.
- PyValue.ToInt: floats, booleans, `Decimal` and objects with `__int__` or `__index__` are not modelled. Neither are `bytes` and `bytearray`, which `int()` parses like text (so `shard_bits=b"5"` passes the check and `b"x"` gets the "between" error). Any non-`None`, non-integer, non-text value stands for an object `int()` rejects with `TypeError`.
- Numbers.ParseInt: ASCII only. Unicode digits are not modelled. Neither is the first step CPython takes on non-ASCII text, which turns every character `str.isspace()` accepts (the separators 0x1c to 0x1f included) into a space.
- Strings.Upper: ASCII only. Unicode case mapping, including letters whose upper case is longer, is not modelled.
- Strings.Repr: non-ASCII characters are shown verbatim, without Python's printability test.
- Strings.IsSpace: the six ASCII characters `int()` skips in ASCII text; Unicode whitespace is not modelled.
- Formatting.Format: only `%(key)s` and `%%`. Other conversions, nested parentheses in keys, and the exact text of formatting errors are not modelled.
- Operations.Analyze: the `analyze` value is reduced to its truthiness.
- Introspection.MergeColumn: `to_int` is the identity on already-integer values, so it is not a separate step.
- Monkey-patching in `django_tidb/functions.py` and `django_tidb/patch.py`, and `django_tidb/utils.py`, which relies on Django's own version parser.
- Packaging and settings files.
- The `tiflash_replica` model option, which the schema editor does not implement.

=== FILE: auto_random.dfy ===
/** `BigAutoRandomField`: a 64-bit primary key whose high bits TiDB fills
    with a random shard number. */
module AutoRandom {
  import opened Results
  import opened Strings
  import opened Numbers
  import opened PyValue
  import opened Lexicographic
  import Features
  import opened Version

  /** The two options as they were given; anything may be passed. */
  datatype Field = Field(shardBits: Value, range: Value)

  const DefaultShardBits: Value := IntValue(5)
  const DefaultRange: Value := IntValue(64)

  /** `__init__`: a keyword that was not passed takes its default. */
  function Init(shardBits: Option<Value>, range: Option<Value>): (f: Field)
    ensures shardBits.Some? ==> f.shardBits == shardBits.value
    ensures range.Some? ==> f.range == range.value
    ensures shardBits.None? ==> f.shardBits == DefaultShardBits
    ensures range.None? ==> f.range == DefaultRange
  {
    Field(
      if shardBits.Some? then shardBits.value else DefaultShardBits,
      if range.Some? then range.value else DefaultRange)
  }

  /** The `checks.Error` instances the field reports, one per message. */
  datatype CheckError =
    | ShardBitsMissing
    | ShardBitsOutOfRange
    | RangeMissing
    | RangeOutOfRange

  /** Each error's message text. */
  function Message(e: CheckError): string {
    match e
    case ShardBitsMissing => "BigAutoRandomField must define a 'shard_bits' attribute."
    case ShardBitsOutOfRange => "BigAutoRandomField 'shard_bits' attribute must be an integer between 1 and 15."
    case RangeMissing => "BigAutoRandomField must define a 'range' attribute."
    case RangeOutOfRange => "BigAutoRandomField 'range' attribute must be an integer between 32 and 64."
  }

  /** Both checks share one shape, applied to what `int(v)` gave: a
      `TypeError` means the option is missing; a `ValueError`, or a value
      outside `[lo, hi]`, means it is out of range. */
  function CheckInteger(n: Result<int>, lo: int, hi: int, missing: CheckError, outOfRange: CheckError): (r: seq<CheckError>)
    ensures |r| <= 1
    ensures r == [] <==> n.Ok? && lo <= n.value <= hi
    ensures n.Err? && n.error.TypeError? ==> r == [missing]
    ensures !(n.Err? && n.error.TypeError?) ==> r == [] || r == [outOfRange]
  {
    if n.Err? then (if n.error.TypeError? then [missing] else [outOfRange])
    else if n.value < lo || n.value > hi then [outOfRange]
    else []
  }

  /** `_check_shard_bits`: at most one error; none exactly when `int()`
      gives a value from 1 to 15. */
  function CheckShardBits(f: Field): (r: seq<CheckError>)
    ensures |r| <= 1
    ensures r == [] <==> ToInt(f.shardBits).Ok? && 1 <= ToInt(f.shardBits).value <= 15
    ensures r == [] || r == [ShardBitsMissing] || r == [ShardBitsOutOfRange]
    ensures r == [ShardBitsMissing] <==> f.shardBits.NoneValue? || f.shardBits.OtherValue?
  {
    CheckInteger(ToInt(f.shardBits), 1, 15, ShardBitsMissing, ShardBitsOutOfRange)
  }

  /** `_check_range`: at most one error; none exactly when `int()` gives a
      value from 32 to 64. */
  function CheckRange(f: Field): (r: seq<CheckError>)
    ensures |r| <= 1
    ensures r == [] <==> ToInt(f.range).Ok? && 32 <= ToInt(f.range).value <= 64
    ensures r == [] || r == [RangeMissing] || r == [RangeOutOfRange]
    ensures r == [RangeMissing] <==> f.range.NoneValue? || f.range.OtherValue?
  {
    CheckInteger(ToInt(f.range), 32, 64, RangeMissing, RangeOutOfRange)
  }

  /** Two checks' errors, each at most one, the first check's in front. */
  function Combined(first: seq<CheckError>, second: seq<CheckError>): (r: seq<CheckError>)
    requires |first| <= 1 && |second| <= 1
    ensures |r| <= 2
    ensures r == [] <==> first == [] && second == []
    ensures second == [] ==> r == first
    ensures first == [] ==> r == second
    ensures first != [] && second != [] ==> r == [first[0], second[0]]
  {
    first + second
  }

  /** The field's own `check` results: range errors come before shard-bit
      errors. */
  function Check(f: Field): (r: seq<CheckError>)
    ensures |r| <= 2
    ensures r == [] <==> CheckRange(f) == [] && CheckShardBits(f) == []
    ensures CheckShardBits(f) == [] ==> r == CheckRange(f)
    ensures CheckRange(f) == [] ==> r == CheckShardBits(f)
    ensures CheckRange(f) != [] && CheckShardBits(f) != [] ==> r == [CheckRange(f)[0], CheckShardBits(f)[0]]
  {
    Combined(CheckRange(f), CheckShardBits(f))
  }

  /** The defaults pass both checks. */
  lemma DefaultFieldIsValid()
    ensures Check(Init(None, None)) == []
  {
  }

  /** Integer shard bits pass exactly from 1 to 15 and an integer range
      exactly from 32 to 64, each reported alone when the other is valid. */
  lemma CheckIntegerBounds(shardBits: int, range: int)
    ensures Check(Field(IntValue(shardBits), IntValue(range))) == [] <==> 1 <= shardBits <= 15 && 32 <= range <= 64
    ensures 32 <= range <= 64 && !(1 <= shardBits <= 15) ==>
      Check(Field(IntValue(shardBits), IntValue(range))) == [ShardBitsOutOfRange]
    ensures 1 <= shardBits <= 15 && !(32 <= range <= 64) ==>
      Check(Field(IntValue(shardBits), IntValue(range))) == [RangeOutOfRange]
  {
  }

  /** With both options out of bounds, both errors are reported, the
      range's first. */
  lemma CheckReportsBoth(shardBits: int, range: int)
    requires !(1 <= shardBits <= 15) && !(32 <= range <= 64)
    ensures Check(Field(IntValue(shardBits), IntValue(range))) == [RangeOutOfRange, ShardBitsOutOfRange]
  {
  }

  /** A missing option is reported as such, whatever the other holds. */
  lemma CheckNoneIsMissing(v: Value)
    ensures CheckShardBits(Field(NoneValue, v)) == [ShardBitsMissing]
    ensures CheckRange(Field(v, NoneValue)) == [RangeMissing]
  {
  }

  /** The decimal text of a valid setting passes as the integer would:
      the checks go through `int()`. */
  lemma CheckAcceptsDecimalText(shardBits: int, range: int)
    ensures Check(Field(StrValue(IntToString(shardBits)), StrValue(IntToString(range))))
      == Check(Field(IntValue(shardBits), IntValue(range)))
  {
    ParseIntRoundTrip(shardBits);
    ParseIntRoundTrip(range);
  }

  /** `deconstruct`'s keyword arguments: an option set to `None` is
      omitted. */
  function Deconstruct(f: Field): (kwargs: map<string, Value>)
    ensures "shard_bits" in kwargs <==> !f.shardBits.NoneValue?
    ensures "range" in kwargs <==> !f.range.NoneValue?
    ensures kwargs.Keys <= {"shard_bits", "range"}
    ensures forall k :: k in kwargs ==> kwargs[k] != NoneValue
    ensures "shard_bits" in kwargs ==> kwargs["shard_bits"] == f.shardBits
    ensures "range" in kwargs ==> kwargs["range"] == f.range
  {
    var withShard := if f.shardBits.NoneValue? then map[] else map["shard_bits" := f.shardBits];
    if f.range.NoneValue? then withShard else withShard["range" := f.range]
  }

  /** Rebuilding the field from its keyword arguments. */
  function Reconstruct(kwargs: map<string, Value>): Field {
    Init(
      if "shard_bits" in kwargs then Some(kwargs["shard_bits"]) else None,
      if "range" in kwargs then Some(kwargs["range"]) else None)
  }

  /** A migration recreates the field, except that an option set to `None`
      comes back as its default. */
  lemma DeconstructRoundTrip(f: Field)
    ensures !f.shardBits.NoneValue? && !f.range.NoneValue? ==> Reconstruct(Deconstruct(f)) == f
    ensures f.shardBits.NoneValue? ==> Reconstruct(Deconstruct(f)).shardBits == DefaultShardBits
    ensures f.range.NoneValue? ==> Reconstruct(Deconstruct(f)).range == DefaultRange
    ensures !f.shardBits.NoneValue? ==> Reconstruct(Deconstruct(f)).shardBits == f.shardBits
    ensures !f.range.NoneValue? ==> Reconstruct(Deconstruct(f)).range == f.range
  {
  }

  /** `db_type`: before TiDB 6.3 the column only names the shard bits;
      from 6.3 on it names the range too. Options are inserted with `%s`. */
  function DbType(f: Field, tidbVersion: VersionTuple): (r: string)
    ensures StartsWith(r, "bigint AUTO_RANDOM(") && EndsWith(r, ")")
  {
    var inner :=
      if Less(tidbVersion, [6, 3]) then Str(f.shardBits)
      else Str(f.shardBits) + ", " + Str(f.range);
    "bigint AUTO_RANDOM(" + inner + ")"
  }

  const ClauseStart := "bigint AUTO_RANDOM("

  /** The comma-separated arguments of a rendered column type, read back
      as the pattern in the migration tests does. */
  function AutoRandomArguments(t: string): Option<seq<string>> {
    if |t| >= |ClauseStart| + 1 && StartsWith(t, ClauseStart) && EndsWith(t, ")") then
      Some(Split(t[|ClauseStart|..|t| - 1], ','))
    else
      None
  }

  lemma ArgumentsOfClause(inner: string)
    ensures AutoRandomArguments(ClauseStart + inner + ")") == Some(Split(inner, ','))
  {
    var t := ClauseStart + inner + ")";
    assert t[..|ClauseStart|] == ClauseStart;
    assert t[|ClauseStart|..|t| - 1] == inner;
  }

  /** Two decimal arguments separated by `", "` split into the first and
      the second with its leading space. */
  lemma SplitTwoArguments(s: string, g: string)
    requires ',' !in s && ',' !in g
    ensures Split(s + ", " + g, ',') == [s, " " + g]
  {
    assert s + ", " + g == s + [','] + (" " + g);
    assert ',' !in " " + g;
    SplitAtFirstSeparator(s, " " + g, ',');
    SplitWithoutSeparator(" " + g, ',');
  }

  lemma DecimalHasNoComma(i: int)
    ensures ',' !in IntToString(i)
  {
    IntToStringChars(i);
  }

  /** The arguments read back from the column type are the integer options:
      one before 6.3, both from 6.3 on. */
  lemma DbTypeArguments(shardBits: int, range: int, tidbVersion: VersionTuple)
    ensures var args := AutoRandomArguments(DbType(Field(IntValue(shardBits), IntValue(range)), tidbVersion));
      && args.Some?
      && |args.value| == (if Less(tidbVersion, [6, 3]) then 1 else 2)
      && args.value[0] == IntToString(shardBits)
      && ParseInt(args.value[0]) == Ok(shardBits)
      && (|args.value| == 2 ==> args.value[1] == " " + IntToString(range) && ParseInt(args.value[1][1..]) == Ok(range))
  {
    var s, g := IntToString(shardBits), IntToString(range);
    DecimalHasNoComma(shardBits);
    DecimalHasNoComma(range);
    ParseIntRoundTrip(shardBits);
    ParseIntRoundTrip(range);
    if Less(tidbVersion, [6, 3]) {
      ArgumentsOfClause(s);
      SplitWithoutSeparator(s, ',');
    } else {
      ArgumentsOfClause(s + ", " + g);
      SplitTwoArguments(s, g);
      assert (" " + g)[1..] == g;
    }
  }

  /** For a three-part release `a.b.c`, the range is in the column type
      exactly from release 6.3 on, the release that also brings JSON
      fields. */
  lemma DbTypeNamesRangeFrom63(f: Field, a: int, b: int, c: int)
    requires c >= 0
    ensures DbType(f, [a, b, c]) == "bigint AUTO_RANDOM(" + Str(f.shardBits) + ", " + Str(f.range) + ")"
      <==> Features.ReleaseAtLeast(a, b, 6, 3)
    ensures !Less([a, b, c], [6, 3]) <==> Features.Enabled(Features.SupportsJsonField, [a, b, c])
  {
    Features.BelowPair(a, b, c, 6, 3, []);
    assert [6, 3] + [] == [6, 3];
    var long := "bigint AUTO_RANDOM(" + Str(f.shardBits) + ", " + Str(f.range) + ")";
    var short := "bigint AUTO_RANDOM(" + Str(f.shardBits) + ")";
    assert |long| > |short|;
  }

  /** The defaults render as in the adapter's tests. */
  lemma DefaultDbType()
    ensures DbType(Init(None, None), [6, 2, 0]) == "bigint AUTO_RANDOM(5)"
    ensures DbType(Init(None, None), [6, 3, 0]) == "bigint AUTO_RANDOM(5, 64)"
  {
    assert IntToString(5) == "5" && IntToString(64) == "64";
    assert Less([6, 2, 0], [6, 3]) by {
      assert [6, 2, 0][1..] == [2, 0] && [6, 3][1..] == [3];
    }
    assert !Less([6, 3, 0], [6, 3]) by {
      assert [6, 3, 0][1..] == [3, 0] && [6, 3][1..] == [3];
      assert [3, 0][1..] == [0] && [3][1..] == [];
    }
  }
}

=== FILE: base.dfy ===
/** `DatabaseWrapper`: the connection-level values the adapter derives from
    the session row. */
module Base {
  import opened Results
  import opened Strings
  import opened Session
  import opened Version
  import Features

  const DisplayName: string := "TiDB"

  /** The exception `tidb_version` raises when the text does not match. */
  function UnknownVersion(text: string): PyError {
    ConfigError("Unable to determine Tidb version from version string " + Repr(text))
  }

  /** `tidb_version`: the session's version text is matched with the shared
      parser, whose state is returned alongside. A text that does not match
      raises an exception quoting it; a component that is not an integer
      lets `int`'s `ValueError` escape; otherwise the value is the parsed
      tuple. */
  function TidbVersion(parser: TiDBVersion, data: ServerData): (r: Result<(VersionTuple, TiDBVersion)>)
    ensures |Split(data.version, '-')| < 3 ==> r == Err(UnknownVersion(data.version))
    ensures Match(parser, data.version).Err? ==> r == Err(Match(parser, data.version).error)
    ensures r.Ok? ==>
      && Match(parser, data.version) == Ok(MatchOutcome(true, r.value.1))
      && r.value.0 == r.value.1.version
    ensures Match(parser, data.version).Ok? && Match(parser, data.version).value.matched ==>
      r == Ok((Match(parser, data.version).value.state.version, Match(parser, data.version).value.state))
  {
    var m :- Match(parser, data.version);
    if m.matched then Ok((m.state.version, m.state)) else Err(UnknownVersion(data.version))
  }

  /** `get_database_version` is `tidb_version`, failures included. */
  function GetDatabaseVersion(parser: TiDBVersion, data: ServerData): (r: Result<VersionTuple>)
    ensures r.Ok? <==> TidbVersion(parser, data).Ok?
    ensures r.Ok? ==> r.value == TidbVersion(parser, data).value.0
    ensures r.Err? ==> r.error == TidbVersion(parser, data).error
  {
    var (v, _) :- TidbVersion(parser, data);
    Ok(v)
  }

  /** A server that reports the documented shape has exactly its release
      as the database version. */
  lemma DatabaseVersionOfVersionText(parser: TiDBVersion, data: ServerData, upstream: string, vendor: string, comps: seq<nat>, suffix: Option<string>)
    requires '-' !in upstream && '-' !in vendor && |comps| >= 1
    requires data.version == VersionText(upstream, vendor, 1, comps, suffix)
    ensures GetDatabaseVersion(parser, data) == Ok(comps)
  {
    MatchVersionText(parser, upstream, vendor, 1, comps, suffix);
  }

  /** The failure message quotes plain version text in single quotes. */
  lemma UnknownVersionQuotesText(parser: TiDBVersion, data: ServerData)
    requires |Split(data.version, '-')| < 3 && Plain(data.version)
    ensures TidbVersion(parser, data)
      == Err(ConfigError("Unable to determine Tidb version from version string " + "'" + data.version + "'"))
  {
    ReprPlain(data.version);
    var text := "Unable to determine Tidb version from version string ";
    assert text + ("'" + data.version + "'") == text + "'" + data.version + "'";
  }

  /** `data_type_check_constraints`: with column check constraints, the three
      positive integer fields get a `>= 0` check and JSON fields a
      `JSON_VALID` check; without them there are none. */
  function DataTypeCheckConstraints(supportsColumnCheckConstraints: bool): (r: map<string, string>)
    ensures supportsColumnCheckConstraints ==>
      && r.Keys == {"PositiveBigIntegerField", "PositiveIntegerField", "PositiveSmallIntegerField", "JSONField"}
      && r["JSONField"] == "JSON_VALID(`%(column)s`)"
      && forall k :: k in r && k != "JSONField" ==> r[k] == "`%(column)s` >= 0"
    ensures !supportsColumnCheckConstraints ==> r == map[]
  {
    if supportsColumnCheckConstraints then
      map[
        "PositiveBigIntegerField" := "`%(column)s` >= 0",
        "PositiveIntegerField" := "`%(column)s` >= 0",
        "PositiveSmallIntegerField" := "`%(column)s` >= 0",
        "JSONField" := "JSON_VALID(`%(column)s`)"
      ]
    else
      map[]
  }

  /** This adapter always supports column check constraints, so the map
      always has its four entries. */
  lemma AdapterCheckConstraints()
    ensures |DataTypeCheckConstraints(Features.SupportsColumnCheckConstraints)| == 4
  {
    var r := DataTypeCheckConstraints(Features.SupportsColumnCheckConstraints);
    var keys := {"PositiveBigIntegerField", "PositiveIntegerField", "PositiveSmallIntegerField", "JSONField"};
    assert r.Keys == keys;
    assert |keys| == 4;
  }
}

=== FILE: features.dfy ===
/** `DatabaseFeatures`: what the adapter tells the ORM this server can do.
    Each capability is a pure function of the release tuple, the SQL mode
    and the session row; memoisation is not modelled. */
module Features {
  import opened Lexicographic
  import opened Session
  import Version

  type VersionTuple = Version.VersionTuple

  /** The capabilities that depend on the server's release. */
  datatype VersionGate =
    | SupportsForeignKeys
    | IndexesForeignKeys
    | CanIntrospectForeignKeys
    | SupportsTransactions
    | UsesSavepoints
    | CanReleaseSavepoints
    | SupportsJsonField
    | SupportsExpressionIndexes

  /** The tuple each gate compares the release with. JSON fields and
      expression indexes use two-component tuples. */
  function Threshold(g: VersionGate): (t: VersionTuple)
    ensures |t| == 2 || (|t| == 3 && t[2] == 0)
    ensures AtLeast(t, MinimumDatabaseVersion)
  {
    match g
    case SupportsForeignKeys => [6, 6, 0]
    case IndexesForeignKeys => [6, 6, 0]
    case CanIntrospectForeignKeys => [6, 6, 0]
    case SupportsTransactions => [6, 2, 0]
    case UsesSavepoints => [6, 2, 0]
    case CanReleaseSavepoints => [6, 2, 0]
    case SupportsJsonField => [6, 3]
    case SupportsExpressionIndexes => [5, 1]
  }

  /** `tidb_version >= threshold`, in Python's tuple order. */
  predicate Enabled(g: VersionGate, v: VersionTuple)
    ensures Enabled(g, v) <==> LessEq(Threshold(g), v)
  {
    AtLeastIsConverse(v, Threshold(g));
    AtLeast(v, Threshold(g))
  }

  /** A capability a release has is kept by every later release. */
  lemma GateMonotone(g: VersionGate, v1: VersionTuple, v2: VersionTuple)
    requires Enabled(g, v1) && LessEq(v1, v2)
    ensures Enabled(g, v2)
  {
    AtLeastMonotone(Threshold(g), v1, v2);
  }

  /** `a.b` is at least `major.minor`. */
  predicate ReleaseAtLeast(a: int, b: int, major: int, minor: int) {
    a > major || (a == major && b >= minor)
  }

  /** For a three-part release `a.b.c` with `c >= 0`, every gate reduces to
      a comparison of major and minor numbers. */
  lemma GateOnRelease(g: VersionGate, a: int, b: int, c: int)
    requires c >= 0
    ensures Enabled(g, [a, b, c]) <==> ReleaseAtLeast(a, b, Threshold(g)[0], Threshold(g)[1])
  {
    var t := Threshold(g);
    BelowPair(a, b, c, t[0], t[1], t[2..]);
    assert t == [t[0], t[1]] + t[2..];
  }

  /** Below `major.minor` followed by zeroes or nothing. */
  lemma BelowPair(a: int, b: int, c: int, major: int, minor: int, rest: VersionTuple)
    requires c >= 0 && (rest == [] || rest == [0])
    ensures Less([a, b, c], [major, minor] + rest) <==> !ReleaseAtLeast(a, b, major, minor)
  {
    var v := [a, b, c];
    var t := [major, minor] + rest;
    assert v[1..] == [b, c] && v[1..][1..] == [c];
    assert t[1..] == [minor] + rest && t[1..][1..] == rest;
    assert !Less([c], rest) by {
      if rest == [0] {
        assert [c][1..] == [] && rest[1..] == [];
      }
    }
    assert Less(v[1..], t[1..]) <==> b < minor || (b == minor && Less([c], rest));
  }

  /** Two-component thresholds: (6, 3) is below (6, 3, 0), so a server that
      reports exactly 6.3 has JSON fields, while 6.2.x does not. */
  lemma JsonFieldThreshold(patch: int)
    ensures Less([6, 3], [6, 3, 0])
    ensures Enabled(SupportsJsonField, [6, 3])
    ensures !Enabled(SupportsJsonField, [6, 2, patch])
  {
    assert [6, 3] == [6, 3, 0][..2];
    ProperPrefixIsLess([6, 3], [6, 3, 0]);
    Irreflexive([6, 3]);
    assert [6, 2, patch][1..] == [2, patch] && [6, 3][1..] == [3];
    assert Less([2, patch], [3]);
  }

  /* Capabilities that do not depend on the release. */

  const SupportsColumnCheckConstraints: bool := true
  /** An alias of `supports_column_check_constraints`. */
  const SupportsTableCheckConstraints: bool := SupportsColumnCheckConstraints
  const CanIntrospectCheckConstraints: bool := false
  const CanReturnColumnsFromInsert: bool := false
  /** An alias of `can_return_columns_from_insert`. */
  const CanReturnRowsFromBulkInsert: bool := CanReturnColumnsFromInsert
  const SupportsOverClause: bool := true
  /** An alias of `supports_over_clause`. */
  const SupportsFrameRangeFixedDistance: bool := SupportsOverClause
  /** Adding a column and its foreign key in one statement is refused. */
  const CanCreateInlineFk: bool := false
  const SupportsExplainAnalyze: bool := true
  /** `supported_explain_formats`, a set, listed in its literal's order. */
  const SupportedExplainFormats: seq<string> := ["TRADITIONAL", "ROW", "BRIEF", "DOT", "TIDB_JSON"]
  const MinimumDatabaseVersion: VersionTuple := [5]

  /** Pass-through capabilities read from the session row. */
  function HasZoneinfoDatabase(d: ServerData): bool { d.hasZoneinfoDatabase }
  function IsSqlAutoIsNullEnabled(d: ServerData): bool { d.sqlAutoIsNull }
  function IgnoresTableNameCase(d: ServerData): bool { d.lowerCaseTableNames }

  /** `supports_json_field and can_introspect_check_constraints`: check
      constraints are never introspected, so neither are JSON fields. */
  function CanIntrospectJsonField(v: VersionTuple): (r: bool)
    ensures !r
  {
    Enabled(SupportsJsonField, v) && CanIntrospectCheckConstraints
  }

  /* The reasons under which `django_test_skips` groups excluded tests. */

  const NotOnMySqlReason := "This doesn't work on MySQL."
  const JsonFunctionalIndexReason := "MySQL doesn't support functional indexes on a function that returns JSON"
  const DurationArithmeticReason := "MySQL supports multiplying and dividing DurationFields by a scalar value but it's not implemented (#25287)."
  const TidbReason := "tidb"
  const Tidb4Reason := "tidb4"
  const AutoRandomReason := "auto_random"
  const Tidb653Reason := "tidb653"
  const OnlyFullGroupByReason := "GROUP BY cannot contain nonaggregated column when ONLY_FULL_GROUP_BY mode is enabled on TiDB."
  const ForeignKeysReason := "django42_db_unsupport_foreign_keys"

  const BaseReasons: set<string> := {NotOnMySqlReason, JsonFunctionalIndexReason, DurationArithmeticReason, TidbReason}

  /** The reason keys `django_test_skips` returns: the four base groups, and
      each conditional group exactly when its condition holds. */
  function TestSkipReasons(v: VersionTuple, sqlMode: set<string>): (r: set<string>)
    ensures BaseReasons <= r
    ensures Tidb4Reason in r <==> Less(v, [5])
    ensures AutoRandomReason in r <==> Less(v, [6, 3])
    ensures Tidb653Reason in r <==> Less(v, [6, 6])
    ensures OnlyFullGroupByReason in r <==> "ONLY_FULL_GROUP_BY" in sqlMode
    ensures ForeignKeysReason in r <==> !Enabled(SupportsForeignKeys, v)
    ensures r <= BaseReasons + {Tidb4Reason, AutoRandomReason, Tidb653Reason, OnlyFullGroupByReason, ForeignKeysReason}
  {
    BaseReasons
      + (if Less(v, [5]) then {Tidb4Reason} else {})
      + (if Less(v, [6, 3]) then {AutoRandomReason} else {})
      + (if Less(v, [6, 6]) then {Tidb653Reason} else {})
      + (if "ONLY_FULL_GROUP_BY" in sqlMode then {OnlyFullGroupByReason} else {})
      + (if !Enabled(SupportsForeignKeys, v) then {ForeignKeysReason} else {})
  }

  lemma LessMonotone(x: VersionTuple, v1: VersionTuple, v2: VersionTuple)
    requires LessEq(v1, v2) && Less(v2, x)
    ensures Less(v1, x)
  {
    if Less(v1, v2) {
      Transitive(v1, v2, x);
    }
  }

  /** A later release skips no group an earlier one does not, and a wider
      SQL mode skips no fewer. */
  lemma SkipsShrinkWithRelease(v1: VersionTuple, v2: VersionTuple, m1: set<string>, m2: set<string>)
    requires LessEq(v1, v2) && m2 <= m1
    ensures TestSkipReasons(v2, m2) <= TestSkipReasons(v1, m1)
  {
    var r1 := TestSkipReasons(v1, m1);
    var r2 := TestSkipReasons(v2, m2);
    if Less(v2, [5]) { LessMonotone([5], v1, v2); }
    if Less(v2, [6, 3]) { LessMonotone([6, 3], v1, v2); }
    if Less(v2, [6, 6]) { LessMonotone([6, 6], v1, v2); }
    if Enabled(SupportsForeignKeys, v1) { GateMonotone(SupportsForeignKeys, v1, v2); }
  }

  /** On a three-part release the "tidb653" group and the missing-foreign-key
      group appear together: below 6.6.0 both, from 6.6.0 on neither. */
  lemma ForeignKeyGroupsTogether(a: int, b: int, c: int, m: set<string>)
    requires c >= 0
    ensures Tidb653Reason in TestSkipReasons([a, b, c], m) <==> ForeignKeysReason in TestSkipReasons([a, b, c], m)
    ensures Tidb653Reason in TestSkipReasons([a, b, c], m) <==> !ReleaseAtLeast(a, b, 6, 6)
  {
    GateOnRelease(SupportsForeignKeys, a, b, c);
    BelowPair(a, b, c, 6, 6, []);
    assert [6, 6] + [] == [6, 6];
  }

  /** A two-part report of exactly 6.6 is below (6, 6, 0) but not below
      (6, 6): it gets the missing-foreign-key group without "tidb653". */
  lemma TwoPartReleaseSplitsForeignKeyGroups(m: set<string>)
    ensures ForeignKeysReason in TestSkipReasons([6, 6], m)
    ensures Tidb653Reason !in TestSkipReasons([6, 6], m)
  {
    assert [6, 6] == [6, 6, 0][..2];
    ProperPrefixIsLess([6, 6], [6, 6, 0]);
    Irreflexive([6, 6]);
  }

  /** The `tidb4` group is skipped exactly on servers older than the
      oldest release the backend supports. */
  lemma Tidb4SkipsBelowMinimum(v: VersionTuple, m: set<string>)
    ensures Tidb4Reason in TestSkipReasons(v, m) <==> !AtLeast(v, MinimumDatabaseVersion)
  {
  }

  /** From 6.6.0 on, without ONLY_FULL_GROUP_BY, only the base groups apply. */
  lemma CurrentReleaseSkipsBaseOnly(v: VersionTuple, m: set<string>)
    requires AtLeast(v, [6, 6, 0]) && "ONLY_FULL_GROUP_BY" !in m
    ensures TestSkipReasons(v, m) == BaseReasons
  {
    assert [6, 6] == [6, 6, 0][..2];
    ProperPrefixIsLess([6, 6], [6, 6, 0]);
    assert [6, 3] == [6, 3, 0][..2];
    ProperPrefixIsLess([6, 3], [6, 3, 0]);
    assert Less([6, 3, 0], [6, 6, 0]);
    assert Less([5], [6, 3]);
    AtLeastIsConverse(v, [6, 6, 0]);
    LessEqTransitive([6, 6], [6, 6, 0], v);
    LessEqTransitive([6, 3], [6, 6, 0], v);
    LessEqTransitive([5], [6, 6, 0], v);
    AtLeastIsConverse(v, [6, 6]);
    AtLeastIsConverse(v, [6, 3]);
    AtLeastIsConverse(v, [5]);
  }
}

=== FILE: formatting.dfy ===
/** Python's `template % mapping` for the `%(key)s` placeholders the
    backend's SQL templates use. */
module Formatting {
  import opened Results

  /** The index of the first `)` at or after `i`, or `|t|` when there is
      none. */
  function KeyEnd(t: string, i: nat): (j: nat)
    requires i <= |t|
    ensures i <= j <= |t|
    ensures forall k :: i <= k < j ==> t[k] != ')'
    ensures j < |t| ==> t[j] == ')'
    decreases |t| - i
  {
    if i == |t| || t[i] == ')' then i else KeyEnd(t, i + 1)
  }

  /** Left to right: ordinary characters are copied, `%%` gives `%`, and
      `%(key)s` gives the mapping's text for `key`; a missing key raises
      `KeyError`, a template that stops inside a directive raises
      `ValueError`. */
  function Format(t: string, args: map<string, string>): (r: Result<string>)
    ensures '%' !in t ==> r == Ok(t)
    ensures r.Err? ==> r.error.KeyError? || r.error.ValueError?
    ensures r.Err? && r.error.KeyError? ==> r.error.key !in args
    decreases |t|
  {
    if |t| == 0 then Ok("")
    else if t[0] != '%' then
      var rest :- Format(t[1..], args);
      assert t == [t[0]] + t[1..];
      Ok([t[0]] + rest)
    else if |t| == 1 then Err(ValueError("incomplete format"))
    else if t[1] == '%' then
      var rest :- Format(t[2..], args);
      Ok("%" + rest)
    else if t[1] != '(' then Err(ValueError("unsupported format character"))
    else
      var k := KeyEnd(t, 2);
      if k == |t| then Err(ValueError("incomplete format key"))
      else if t[2..k] !in args then Err(KeyError(t[2..k]))
      else if k + 1 == |t| then Err(ValueError("incomplete format"))
      else if t[k + 1] != 's' then Err(ValueError("unsupported format character"))
      else
        var rest :- Format(t[k + 2..], args);
        Ok(args[t[2..k]] + rest)
  }

  /** The text `%(key)s`. */
  function Placeholder(key: string): string {
    "%(" + key + ")s"
  }

  /** Text without `%` is copied unchanged in front of what follows. */
  lemma {:induction false} FormatLiteral(a: string, b: string, args: map<string, string>)
    requires '%' !in a
    ensures Format(a + b, args) == (if Format(b, args).Ok? then Ok(a + Format(b, args).value) else Format(b, args))
    decreases |a|
  {
    if |a| == 0 {
      assert a + b == b;
      if Format(b, args).Ok? {
        assert a + Format(b, args).value == Format(b, args).value;
      }
    } else {
      assert (a + b)[0] == a[0] && (a + b)[1..] == a[1..] + b;
      assert a[0] != '%' by { assert a[0] in a; }
      var tail := Format(a[1..] + b, args);
      assert Format(a + b, args) == (if tail.Ok? then Ok([a[0]] + tail.value) else tail);
      FormatLiteral(a[1..], b, args);
      if Format(b, args).Ok? {
        var v := Format(b, args).value;
        assert [a[0]] + (a[1..] + v) == a + v by {
          assert a == [a[0]] + a[1..];
        }
      }
    }
  }

  /** A placeholder whose key is given is replaced by the key's text. */
  lemma FormatPlaceholder(key: string, b: string, args: map<string, string>)
    requires ')' !in key && key in args
    ensures Format(Placeholder(key) + b, args)
      == (if Format(b, args).Ok? then Ok(args[key] + Format(b, args).value) else Format(b, args))
  {
    var t := Placeholder(key) + b;
    assert t[0] == '%' && t[1] == '(';
    var k := KeyEnd(t, 2);
    assert forall i :: 2 <= i < 2 + |key| ==> t[i] == key[i - 2];
    assert t[2 + |key|] == ')';
    assert k == 2 + |key|;
    assert t[2..k] == key;
    assert t[k + 1] == 's';
    assert t[k + 2..] == b;
  }

  /** A placeholder whose key is missing raises `KeyError` for it. */
  lemma FormatMissingKey(key: string, b: string, args: map<string, string>)
    requires ')' !in key && key !in args
    ensures Format(Placeholder(key) + b, args) == Err(KeyError(key))
  {
    var t := Placeholder(key) + b;
    assert t[0] == '%' && t[1] == '(';
    assert forall i :: 2 <= i < 2 + |key| ==> t[i] == key[i - 2];
    assert t[2 + |key|] == ')';
    assert KeyEnd(t, 2) == 2 + |key|;
    assert t[2..2 + |key|] == key;
  }
}

=== FILE: introspection.dfy ===
/** `DatabaseIntrospection.get_table_description`: each column the cursor
    describes is completed with its `information_schema` row. The queries
    themselves are left out; their rows are inputs. */
module Introspection {
  import opened Results
  import Features
  import opened Version

  /** A row of `information_schema.columns` (`InfoLine`). `collation` is
      already `None` when it equals the table's default. */
  datatype InfoLine = InfoLine(
    colName: string,
    dataType: string,
    maxLen: Option<int>,
    numPrec: Option<int>,
    numScale: Option<int>,
    extra: string,
    columnDefault: Option<string>,
    collation: Option<string>,
    isUnsigned: bool,
    comment: string)

  /** One entry of `cursor.description`. */
  datatype CursorColumn = CursorColumn(
    name: string,
    typeCode: int,
    displaySize: Option<int>,
    internalSize: Option<int>,
    precision: Option<int>,
    scale: Option<int>,
    nullOk: bool)

  /** The backend's `FieldInfo`: Django's fields plus five of its own. */
  datatype FieldInfo = FieldInfo(
    name: string,
    typeCode: int,
    displaySize: Option<int>,
    internalSize: Option<int>,
    precision: Option<int>,
    scale: Option<int>,
    nullOk: bool,
    default: Option<string>,
    collation: Option<string>,
    extra: string,
    isUnsigned: bool,
    hasJsonConstraint: bool,
    comment: string,
    dataType: string)

  /** Python's `x or y` for an optional integer: `None` and `0` are false. */
  function Or(x: Option<int>, y: Option<int>): (r: Option<int>)
    ensures x.Some? && x.value != 0 ==> r == x
    ensures x.None? || x.value == 0 ==> r == y
  {
    if x.Some? && x.value != 0 then x else y
  }

  /** What `field_info` promises about `rows`: every named column is a key,
      mapped to one of its own rows. */
  ghost predicate KeyedBy(r: map<string, InfoLine>, rows: seq<InfoLine>) {
    && (forall n :: n in r <==> exists i :: 0 <= i < |rows| && rows[i].colName == n)
    && (forall n :: n in r ==> r[n] in rows && r[n].colName == n)
  }

  /** Adding the next row to the map of the earlier ones keeps it keyed by
      all of them. */
  lemma KeyedByStep(earlier: map<string, InfoLine>, rows: seq<InfoLine>)
    requires |rows| > 0 && KeyedBy(earlier, rows[..|rows| - 1])
    ensures KeyedBy(earlier[rows[|rows| - 1].colName := rows[|rows| - 1]], rows)
  {
    var init := rows[..|rows| - 1];
    var last := rows[|rows| - 1];
    var r := earlier[last.colName := last];
    assert forall i :: 0 <= i < |init| ==> init[i] == rows[i];
    forall n | n in r ensures r[n] in rows && r[n].colName == n {
      if n != last.colName {
        var k :| 0 <= k < |init| && init[k] == earlier[n];
        assert rows[k] == earlier[n];
      }
    }
  }

  /** `field_info`: rows keyed by column name; a later row replaces an
      earlier one with the same name. */
  function InfoByName(rows: seq<InfoLine>): (r: map<string, InfoLine>)
    ensures forall n :: n in r <==> exists i :: 0 <= i < |rows| && rows[i].colName == n
    ensures forall n :: n in r ==> r[n] in rows && r[n].colName == n
    ensures |rows| > 0 ==> r[rows[|rows| - 1].colName] == rows[|rows| - 1]
    decreases |rows|
  {
    if |rows| == 0 then map[]
    else
      var earlier := InfoByName(rows[..|rows| - 1]);
      KeyedByStep(earlier, rows);
      earlier[rows[|rows| - 1].colName := rows[|rows| - 1]]
  }

  /** A row whose name no later row repeats is the one kept. */
  lemma {:induction false} InfoByNameKeepsLast(rows: seq<InfoLine>, i: nat)
    requires i < |rows|
    requires forall j :: i < j < |rows| ==> rows[j].colName != rows[i].colName
    ensures InfoByName(rows)[rows[i].colName] == rows[i]
    decreases |rows|
  {
    if i < |rows| - 1 {
      var init := rows[..|rows| - 1];
      assert init[i] == rows[i];
      InfoByNameKeepsLast(init, i);
    }
  }

  /** The names of the table's `JSON_VALID` check constraints, queried only
      when JSON fields can be introspected. */
  function JsonConstraints(canIntrospectJsonField: bool, names: seq<string>): (r: set<string>)
    ensures !canIntrospectJsonField ==> r == {}
    ensures canIntrospectJsonField ==> forall n :: n in r <==> n in names
  {
    if canIntrospectJsonField then set n | n in names else {}
  }

  /** One output record: name, type code and nullability from the cursor;
      sizes, precision and scale from `information_schema` unless it gives
      `None` or `0`; everything else from `information_schema`. */
  function MergeColumn(line: CursorColumn, info: InfoLine, json: set<string>): (f: FieldInfo)
    ensures f.name == line.name && f.typeCode == line.typeCode && f.nullOk == line.nullOk
    ensures info.maxLen.Some? && info.maxLen.value != 0 ==>
      f.displaySize == info.maxLen && f.internalSize == info.maxLen
    ensures info.maxLen.None? || info.maxLen.value == 0 ==>
      f.displaySize == line.displaySize && f.internalSize == line.internalSize
    ensures f.precision == (if info.numPrec.Some? && info.numPrec.value != 0 then info.numPrec else line.precision)
    ensures f.scale == (if info.numScale.Some? && info.numScale.value != 0 then info.numScale else line.scale)
    ensures f.default == info.columnDefault && f.collation == info.collation && f.extra == info.extra
    ensures f.isUnsigned == info.isUnsigned && f.comment == info.comment && f.dataType == info.dataType
    ensures f.hasJsonConstraint <==> line.name in json
  {
    FieldInfo(
      line.name,
      line.typeCode,
      Or(info.maxLen, line.displaySize),
      Or(info.maxLen, line.internalSize),
      Or(info.numPrec, line.precision),
      Or(info.numScale, line.scale),
      line.nullOk,
      info.columnDefault,
      info.collation,
      info.extra,
      info.isUnsigned,
      line.name in json,
      info.comment,
      info.dataType)
  }

  /** Column `i` is the first one the rows do not name. */
  predicate FirstMissing(description: seq<CursorColumn>, fieldInfo: map<string, InfoLine>, i: int) {
    && 0 <= i < |description|
    && description[i].name !in fieldInfo
    && forall j :: 0 <= j < i ==> description[j].name in fieldInfo
  }

  /** The loop of `get_table_description`: one record per described column,
      in order; the first column without an `information_schema` row
      raises `KeyError`. */
  method GetTableDescription(description: seq<CursorColumn>, infoRows: seq<InfoLine>, canIntrospectJsonField: bool, jsonNames: seq<string>)
    returns (r: Result<seq<FieldInfo>>)
    ensures r.Ok? <==> forall i :: 0 <= i < |description| ==> description[i].name in InfoByName(infoRows)
    ensures r.Ok? ==> |r.value| == |description|
    ensures r.Ok? ==> forall i :: 0 <= i < |description| ==>
      r.value[i] == MergeColumn(description[i], InfoByName(infoRows)[description[i].name], JsonConstraints(canIntrospectJsonField, jsonNames))
    ensures r.Err? ==> exists i :: FirstMissing(description, InfoByName(infoRows), i) && r.error == KeyError(description[i].name)
  {
    var json := JsonConstraints(canIntrospectJsonField, jsonNames);
    var fieldInfo := InfoByName(infoRows);
    var fields: seq<FieldInfo> := [];
    var k := 0;
    while k < |description|
      invariant 0 <= k <= |description|
      invariant |fields| == k
      invariant forall j :: 0 <= j < k ==> description[j].name in fieldInfo
      invariant forall j :: 0 <= j < k ==> fields[j] == MergeColumn(description[j], fieldInfo[description[j].name], json)
    {
      var line := description[k];
      if line.name !in fieldInfo {
        assert FirstMissing(description, fieldInfo, k);
        return Err(KeyError(line.name));
      }
      fields := fields + [MergeColumn(line, fieldInfo[line.name], json)];
      k := k + 1;
    }
    return Ok(fields);
  }

  /** TiDB never introspects JSON fields, so no column is reported with a
      JSON constraint, whatever the release. */
  lemma NoJsonConstraintOnTiDB(v: VersionTuple, line: CursorColumn, info: InfoLine, names: seq<string>)
    ensures !MergeColumn(line, info, JsonConstraints(Features.CanIntrospectJsonField(v), names)).hasJsonConstraint
  {
  }

  /** A precision or scale of `0` from `information_schema` is ignored in
      favour of the cursor's, as `or` treats it as false. */
  lemma ZeroFallsBack(line: CursorColumn, info: InfoLine, json: set<string>)
    requires info.numPrec == Some(0) && info.numScale == Some(0) && info.maxLen == Some(0)
    ensures var f := MergeColumn(line, info, json);
      f.precision == line.precision && f.scale == line.scale
      && f.displaySize == line.displaySize && f.internalSize == line.internalSize
  {
  }
}

=== FILE: lexicographic.dfy ===
/** Python's ordering of integer tuples: element by element, and a proper
    prefix is smaller than the longer tuple. Version tuples and (through
    their code points) strings are compared this way. */
module Lexicographic {

  predicate Less(a: seq<int>, b: seq<int>)
    ensures Less(a, b) ==> a != b
    decreases |a|
  {
    if |a| == 0 then |b| > 0
    else if |b| == 0 then false
    else a[0] < b[0] || (a[0] == b[0] && Less(a[1..], b[1..]))
  }

  predicate LessEq(a: seq<int>, b: seq<int>) {
    Less(a, b) || a == b
  }

  /** Python's `a >= b` on tuples. */
  predicate AtLeast(a: seq<int>, b: seq<int>) {
    !Less(a, b)
  }

  lemma {:induction false} Irreflexive(a: seq<int>)
    ensures !Less(a, a)
    decreases |a|
  {
    if |a| > 0 {
      Irreflexive(a[1..]);
    }
  }

  lemma {:induction false} Transitive(a: seq<int>, b: seq<int>, c: seq<int>)
    requires Less(a, b) && Less(b, c)
    ensures Less(a, c)
    decreases |a|
  {
    if |a| > 0 {
      assert |b| > 0 && |c| > 0;
      if a[0] == b[0] && b[0] == c[0] {
        Transitive(a[1..], b[1..], c[1..]);
      }
    }
  }

  /** Any two tuples are comparable: the order is total. */
  lemma {:induction false} Trichotomy(a: seq<int>, b: seq<int>)
    ensures Less(a, b) || a == b || Less(b, a)
    decreases |a|
  {
    if |a| > 0 && |b| > 0 && a[0] == b[0] {
      Trichotomy(a[1..], b[1..]);
      if a[1..] == b[1..] {
        assert a == [a[0]] + a[1..] && b == [b[0]] + b[1..];
      }
    }
  }

  lemma {:induction false} Asymmetric(a: seq<int>, b: seq<int>)
    requires Less(a, b)
    ensures !Less(b, a)
    decreases |a|
  {
    if |a| > 0 && a[0] == b[0] {
      Asymmetric(a[1..], b[1..]);
    }
  }

  lemma LessEqTransitive(a: seq<int>, b: seq<int>, c: seq<int>)
    requires LessEq(a, b) && LessEq(b, c)
    ensures LessEq(a, c)
  {
    if Less(a, b) && Less(b, c) {
      Transitive(a, b, c);
    }
  }

  /** `>=` is the converse of `<=`, as Python evaluates it. */
  lemma AtLeastIsConverse(a: seq<int>, b: seq<int>)
    ensures AtLeast(a, b) <==> LessEq(b, a)
  {
    Trichotomy(a, b);
    if Less(b, a) {
      Asymmetric(b, a);
    }
  }

  /** A tuple that is at least `x` stays at least `x` as it grows. */
  lemma AtLeastMonotone(x: seq<int>, v1: seq<int>, v2: seq<int>)
    requires AtLeast(v1, x) && LessEq(v1, v2)
    ensures AtLeast(v2, x)
  {
    AtLeastIsConverse(v1, x);
    AtLeastIsConverse(v2, x);
    LessEqTransitive(x, v1, v2);
  }

  lemma {:induction false} ProperPrefixIsLess(a: seq<int>, b: seq<int>)
    requires |a| < |b| && a == b[..|a|]
    ensures Less(a, b)
    decreases |a|
  {
    if |a| > 0 {
      assert a[1..] == b[1..][..|a| - 1];
      ProperPrefixIsLess(a[1..], b[1..]);
    }
  }
}

=== FILE: numbers.dfy ===
/** Python's `int(text)` in base 10 and `str(n)` / `"%d" % n` for integers. */
module Numbers {
  import opened Results
  import opened Strings

  predicate IsDigit(c: char) {
    '0' <= c <= '9'
  }

  predicate AllDigits(s: string) {
    forall i :: 0 <= i < |s| ==> IsDigit(s[i])
  }

  function DigitsValue(s: string): nat
    requires AllDigits(s)
    decreases |s|
  {
    if |s| == 0 then 0 else DigitsValue(s[..|s| - 1]) * 10 + (s[|s| - 1] as int - '0' as int)
  }

  function DigitChar(d: nat): (c: char)
    requires d < 10
    ensures IsDigit(c) && c as int - '0' as int == d
  {
    ('0' as int + d) as char
  }

  /** `str(n)` for a non-negative integer: its decimal digits, without
      leading zeros. Reading the digits back gives `n`. */
  function NatToString(n: nat): (r: string)
    ensures |r| >= 1 && AllDigits(r)
    ensures DigitsValue(r) == n
    ensures r[0] == '0' ==> n == 0
    decreases n
  {
    if n < 10 then [DigitChar(n)]
    else
      var r := NatToString(n / 10) + [DigitChar(n % 10)];
      assert r[..|r| - 1] == NatToString(n / 10);
      r
  }

  /** `str(i)` and `"%d" % i` for any integer. */
  function IntToString(i: int): (r: string)
    ensures |r| >= 1 && (r[0] == '-' || IsDigit(r[0]))
  {
    if i < 0 then "-" + NatToString(-i) else NatToString(i)
  }

  /** Decimal text never holds a separator, a quote or whitespace. */
  lemma IntToStringChars(i: int)
    ensures forall k :: 0 <= k < |IntToString(i)| ==> IntToString(i)[k] == '-' || IsDigit(IntToString(i)[k])
  {
  }

  /** Position `i` holds a digit, or an underscore between two digits. */
  predicate DigitOrJoiner(s: string, i: int)
    requires 0 <= i < |s|
  {
    IsDigit(s[i]) || (s[i] == '_' && 0 < i < |s| - 1 && IsDigit(s[i - 1]) && IsDigit(s[i + 1]))
  }

  /** Digits, with single underscores allowed between two digits. */
  predicate WellFormedDigits(s: string) {
    |s| > 0 && forall i :: 0 <= i < |s| ==> DigitOrJoiner(s, i)
  }

  lemma WellFormedDigitsChars(s: string)
    requires WellFormedDigits(s)
    ensures forall i :: 0 <= i < |s| ==> IsDigit(s[i]) || s[i] == '_'
  {
    forall i | 0 <= i < |s| ensures IsDigit(s[i]) || s[i] == '_' {
      assert DigitOrJoiner(s, i);
    }
  }

  function DropUnderscores(s: string): (r: string)
    requires forall i :: 0 <= i < |s| ==> IsDigit(s[i]) || s[i] == '_'
    ensures AllDigits(r)
    decreases |s|
  {
    if |s| == 0 then ""
    else (if s[0] == '_' then "" else [s[0]]) + DropUnderscores(s[1..])
  }

  /** The first `n` characters of `t`, as `%.<n>R` keeps of a `repr`. */
  function Truncated(t: string, n: nat): (r: string)
    ensures |r| <= n && |r| <= |t| && r == t[..|r|]
    ensures |t| <= n ==> r == t
  {
    if |t| <= n then t else t[..n]
  }

  const InvalidLiteralPrefix := "invalid literal for int() with base 10: "

  /** The `ValueError` of `int()`, which quotes at most 200 characters of
      the text's `repr` (`%.200R`). */
  function InvalidLiteral(s: string): (e: PyError)
    ensures e.ValueError? && StartsWith(e.message, InvalidLiteralPrefix)
    ensures |e.message| <= |InvalidLiteralPrefix| + 200
    ensures |Repr(s)| <= 200 ==> e.message == InvalidLiteralPrefix + Repr(s)
  {
    ValueError(InvalidLiteralPrefix + Truncated(Repr(s), 200))
  }

  /** The text after surrounding whitespace and one sign character. */
  function Unsigned(t: string): string {
    if |t| > 0 && (t[0] == '-' || t[0] == '+') then t[1..] else t
  }

  /** `int(s)`: surrounding whitespace is ignored, one sign is allowed, and
      the rest must be decimal digits, optionally grouped by single
      underscores; anything else raises `ValueError` quoting the text. */
  function ParseInt(s: string): (r: Result<int>)
    ensures r.Err? ==> r.error == InvalidLiteral(s)
    ensures r.Ok? <==> WellFormedDigits(Unsigned(Strip(s)))
    ensures r.Ok? ==> Abs(r.value) == GroupedValue(Unsigned(Strip(s)))
    ensures r.Ok? ==> (r.value < 0 ==> Strip(s)[0] == '-') && (Strip(s)[0] == '-' ==> r.value <= 0)
  {
    var t := Strip(s);
    var body := Unsigned(t);
    if WellFormedDigits(body) then
      var n: int := GroupedValue(body);
      Ok(if t[0] == '-' then -n else n)
    else
      Err(InvalidLiteral(s))
  }

  function Abs(i: int): nat {
    if i < 0 then -i else i
  }

  /** The value of digit groups, the underscores between them ignored. */
  function GroupedValue(body: string): nat
    requires WellFormedDigits(body)
  {
    WellFormedDigitsChars(body);
    DigitsValue(DropUnderscores(body))
  }

  /** Surrounding whitespace, a `+` sign, leading zeros and underscores
      between digits are accepted; a `-` sign negates. */
  lemma ParseIntExamples()
    ensures ParseInt(" +1_0 ") == Ok(10)
    ensures ParseInt("007") == Ok(7)
    ensures ParseInt("-5") == Ok(-5)
    ensures ParseInt("1__0").Err? && ParseInt("_1").Err? && ParseInt("+-1").Err?
  {
    GroupedExample();
    LeadingZerosExample();
    NegativeExample();
    MisplacedUnderscoreExamples();
    DoubleSignExample();
  }

  lemma LeadingZerosExample()
    ensures ParseInt("007") == Ok(7)
  {
    StripWithoutSpace("007");
    assert WellFormedDigits("007") by {
      assert DigitOrJoiner("007", 0) && DigitOrJoiner("007", 1) && DigitOrJoiner("007", 2);
    }
    DropUnderscoresOfDigits("007");
    assert DigitsValue("007") == 7 by {
      assert "007"[..2] == "00" && "00"[..1] == "0" && "0"[..0] == "";
    }
  }

  lemma NegativeExample()
    ensures ParseInt("-5") == Ok(-5)
  {
    StripWithoutSpace("-5");
    assert Unsigned("-5") == "5";
    assert WellFormedDigits("5") by { assert DigitOrJoiner("5", 0); }
    DropUnderscoresOfDigits("5");
    assert DigitsValue("5") == 5 by { assert "5"[..0] == ""; }
  }

  /** A tab around the literal is skipped, the separator 0x1c is not. */
  lemma SurroundingSpaceExamples()
    ensures ParseInt("\t5") == Ok(5)
    ensures ParseInt([28 as char, '5']).Err?
  {
    assert Strip("\t5") == "5" by {
      assert StripLeft("\t5") == StripLeft("5");
      StripWithoutSpace("5");
    }
    assert Unsigned("5") == "5";
    assert WellFormedDigits("5") by { assert DigitOrJoiner("5", 0); }
    DropUnderscoresOfDigits("5");
    assert DigitsValue("5") == 5 by { assert "5"[..0] == ""; }
    var s := [28 as char, '5'];
    StripWithoutSpace(s);
    assert Unsigned(s) == s;
    assert !DigitOrJoiner(s, 0);
  }

  lemma MisplacedUnderscoreExamples()
    ensures ParseInt("1__0").Err? && ParseInt("_1").Err?
  {
    StripWithoutSpace("1__0");
    assert Unsigned("1__0") == "1__0";
    assert !DigitOrJoiner("1__0", 1);
    StripWithoutSpace("_1");
    assert Unsigned("_1") == "_1";
    assert !DigitOrJoiner("_1", 0);
  }

  lemma DoubleSignExample()
    ensures ParseInt("+-1").Err?
  {
    StripWithoutSpace("+-1");
    assert Unsigned("+-1") == "-1";
    assert !DigitOrJoiner("-1", 0);
  }

  lemma StripPadded()
    ensures Strip(" +1_0 ") == "+1_0"
  {
    assert StripLeft(" +1_0 ") == "+1_0 ";
    assert StripRight("+1_0 ") == StripRight("+1_0");
    StripWithoutSpace("+1_0");
    assert StripRight(StripLeft("+1_0")) == "+1_0";
    assert StripLeft("+1_0") == "+1_0";
  }

  lemma GroupedExample()
    ensures ParseInt(" +1_0 ") == Ok(10)
  {
    StripPadded();
    assert Unsigned("+1_0") == "1_0";
    assert WellFormedDigits("1_0") by {
      assert DigitOrJoiner("1_0", 0) && DigitOrJoiner("1_0", 1) && DigitOrJoiner("1_0", 2);
    }
    assert DropUnderscores("1_0") == "10" by {
      assert "1_0"[1..] == "_0" && "_0"[1..] == "0" && "0"[1..] == "";
    }
    assert DigitsValue("10") == 10 by {
      assert "10"[..1] == "1" && "1"[..0] == "";
    }
  }

  lemma {:induction false} DropUnderscoresOfDigits(s: string)
    requires AllDigits(s)
    ensures DropUnderscores(s) == s
    decreases |s|
  {
    if |s| > 0 {
      DropUnderscoresOfDigits(s[1..]);
      assert s == [s[0]] + s[1..];
    }
  }

  /** Plain digit text reads as its decimal value. */
  lemma ParseDigits(s: string)
    requires |s| > 0 && AllDigits(s)
    ensures ParseInt(s) == Ok(DigitsValue(s))
  {
    DigitsStripToThemselves(s);
    assert Unsigned(s) == s;
    DigitsAreWellFormed(s);
    DropUnderscoresOfDigits(s);
    var r := ParseInt(s);
    assert r.Ok? && Abs(r.value) == DigitsValue(s);
    assert r.value >= 0 by { assert s[0] != '-'; }
  }

  lemma DigitsStripToThemselves(s: string)
    requires AllDigits(s)
    ensures Strip(s) == s
  {
    forall i | 0 <= i < |s| ensures !IsSpace(s[i]) {
      assert IsDigit(s[i]);
    }
    StripWithoutSpace(s);
  }

  lemma DigitsAreWellFormed(s: string)
    requires |s| > 0 && AllDigits(s)
    ensures WellFormedDigits(s)
  {
    forall i | 0 <= i < |s| ensures DigitOrJoiner(s, i) {
      assert IsDigit(s[i]);
    }
  }

  /** `int(str(i)) == i`. */
  lemma ParseIntRoundTrip(i: int)
    ensures ParseInt(IntToString(i)) == Ok(i)
  {
    if i < 0 {
      var d := NatToString(-i);
      var s := "-" + d;
      assert forall k :: 0 <= k < |s| ==> !IsSpace(s[k]) by {
        forall k | 0 <= k < |s| ensures !IsSpace(s[k]) {
          if k > 0 { assert s[k] == d[k - 1]; }
        }
      }
      StripWithoutSpace(s);
      assert Unsigned(s) == d;
      ParseDigits(d);
      assert WellFormedDigits(d);
      DropUnderscoresOfDigits(d);
    } else {
      ParseDigits(NatToString(i));
    }
  }

  /** `int("")` and `int("v")` raise. */
  lemma ParseIntRejects()
    ensures ParseInt("").Err?
    ensures ParseInt("v").Err?
  {
    assert Strip("v") == "v";
    assert !DigitOrJoiner("v", 0);
    assert !WellFormedDigits("v");
  }
}

=== FILE: operations.dfy ===
/** `DatabaseOperations`: EXPLAIN prefixes, regular-expression lookups and
    the integer range of the random-shard key field. */
module Operations {
  import opened Results
  import opened Strings
  import Features
  import Base

  /** `integer_field_ranges["BigAutoRandomField"]`. */
  const BigAutoRandomFieldRange: (int, int) := (-0x8000_0000_0000_0000, 0x7fff_ffff_ffff_ffff)

  /** Reading an integer as a 64-bit two's-complement word. */
  function WrapSigned64(x: int): int {
    (x + 0x8000_0000_0000_0000) % 0x1_0000_0000_0000_0000 - 0x8000_0000_0000_0000
  }

  /** The range holds exactly the integers a signed 64-bit column stores
      unchanged. */
  lemma BigAutoRandomRangeIsSigned64(x: int)
    ensures BigAutoRandomFieldRange.0 <= x <= BigAutoRandomFieldRange.1 <==> WrapSigned64(x) == x
  {
    var m := 0x1_0000_0000_0000_0000;
    var y := x + 0x8000_0000_0000_0000;
    assert 0 <= y % m < m;
    if 0 <= y < m {
      assert y % m == y;
    }
  }

  /** One keyword argument of `explain`, with its value's truthiness. */
  datatype ExplainOption = ExplainOption(name: string, truthy: bool)

  /** `format` once a missing or empty value and `TEXT` in any case have
      become `ROW`. */
  function EffectiveFormat(format: Option<string>): (f: string)
    ensures format.None? || format == Some("") || Upper(format.value) == "TEXT" ==> f == "ROW"
    ensures format.Some? && format.value != "" && Upper(format.value) != "TEXT" ==> f == format.value
  {
    match format
    case None => "ROW"
    case Some(f) =>
      if f != "" && Upper(f) == "TEXT" then "ROW"
      else if f == "" then "ROW"
      else f
  }

  /** `options.pop("analyze", False)`, read for truthiness. */
  predicate Analyze(options: seq<ExplainOption>) {
    exists i :: 0 <= i < |options| && options[i].name == "analyze" && options[i].truthy
  }

  /** The option names left after `analyze` is popped, in order. */
  function UnknownOptions(options: seq<ExplainOption>): (r: seq<string>)
    ensures forall n :: n in r <==> n != "analyze" && exists i :: 0 <= i < |options| && options[i].name == n
    decreases |options|
  {
    if |options| == 0 then []
    else
      var rest := UnknownOptions(options[1..]);
      assert forall i :: 0 <= i < |options| - 1 ==> options[1..][i] == options[i + 1];
      if options[0].name == "analyze" then rest else [options[0].name] + rest
  }

  /** The clause that names the output format. */
  function FormatClause(f: string): string {
    " FORMAT=\"" + f + "\""
  }

  /** The keyword a truthy `analyze` adds. */
  function AnalyzeClause(analyze: bool): string {
    if analyze then " ANALYZE" else ""
  }

  /** The `ValueError` for a format the backend does not list. */
  function UnrecognizedFormat(normalized: string, supported: seq<string>): PyError {
    if |supported| > 0 then
      ValueError(normalized + " is not a recognized format. Allowed formats: " + Join(Sort(supported), ", "))
    else
      ValueError(normalized + " is not a recognized format. " + Base.DisplayName + " does not support any formats.")
  }

  /** `explain_query_prefix`. The format is checked, case-insensitively,
      before the options; the first failure raises `ValueError`. On success
      the prefix is followed by ` ANALYZE` when `analyze` is truthy and by
      the format clause, which keeps the caller's spelling. */
  function ExplainQueryPrefix(explainPrefix: string, supported: seq<string>, format: Option<string>, options: seq<ExplainOption>): (r: Result<string>)
    ensures r.Ok? <==> Upper(EffectiveFormat(format)) in supported && UnknownOptions(options) == []
    ensures Upper(EffectiveFormat(format)) !in supported ==>
      r == Err(UnrecognizedFormat(Upper(EffectiveFormat(format)), supported))
    ensures Upper(EffectiveFormat(format)) in supported && UnknownOptions(options) != [] ==>
      r == Err(ValueError("Unknown options: " + Join(Sort(UnknownOptions(options)), ", ")))
    ensures r.Ok? ==>
      r.value == explainPrefix + AnalyzeClause(Analyze(options)) + FormatClause(EffectiveFormat(format))
  {
    var f := EffectiveFormat(format);
    var normalized := Upper(f);
    if normalized !in supported then Err(UnrecognizedFormat(normalized, supported))
    else
      var unknown := UnknownOptions(options);
      if unknown != [] then Err(ValueError("Unknown options: " + Join(Sort(unknown), ", ")))
      else
        Ok(explainPrefix + AnalyzeClause(Analyze(options)) + FormatClause(f))
  }

  /** Without arguments a backend that lists `ROW` ends the prefix with
      `FORMAT="ROW"`. */
  lemma ExplainDefaultWhenRowListed(explainPrefix: string, supported: seq<string>)
    requires "ROW" in supported
    ensures ExplainQueryPrefix(explainPrefix, supported, None, [])
      == Ok(explainPrefix + " FORMAT=\"ROW\"")
  {
    assert Upper("ROW") == "ROW";
    assert UnknownOptions([]) == [];
    assert !Analyze([]);
    assert explainPrefix + "" == explainPrefix;
    assert FormatClause("ROW") == " FORMAT=\"ROW\"";
  }

  /** Without arguments TiDB's prefix ends with `FORMAT="ROW"`. */
  lemma ExplainDefault(explainPrefix: string)
    ensures ExplainQueryPrefix(explainPrefix, Features.SupportedExplainFormats, None, [])
      == Ok(explainPrefix + " FORMAT=\"ROW\"")
  {
    assert "ROW" in Features.SupportedExplainFormats;
    ExplainDefaultWhenRowListed(explainPrefix, Features.SupportedExplainFormats);
  }

  /** TiDB's format names are already upper case. */
  lemma SupportedFormatsAreUpperCase(f: string)
    requires f in Features.SupportedExplainFormats
    ensures Upper(f) == f
  {
    assert NoLowerCase("TRADITIONAL") && NoLowerCase("ROW") && NoLowerCase("BRIEF");
    assert NoLowerCase("DOT") && NoLowerCase("TIDB_JSON");
    UpperOfNoLowerCase(f);
  }

  /** A format the list holds in upper case is accepted as given, and with
      a truthy `analyze` the keyword precedes the format clause. */
  lemma ExplainAcceptedFormat(explainPrefix: string, supported: seq<string>, f: string)
    requires f in supported && f != "" && Upper(f) == f && f != "TEXT"
    ensures ExplainQueryPrefix(explainPrefix, supported, Some(f), [])
      == Ok(explainPrefix + " FORMAT=\"" + f + "\"")
    ensures ExplainQueryPrefix(explainPrefix, supported, Some(f), [ExplainOption("analyze", true)])
      == Ok(explainPrefix + " ANALYZE FORMAT=\"" + f + "\"")
  {
    var analyze := [ExplainOption("analyze", true)];
    assert analyze[0].name == "analyze" && analyze[0].truthy;
    assert Analyze(analyze);
    assert UnknownOptions(analyze) == [];
    assert UnknownOptions([]) == [] && !Analyze([]);
    assert explainPrefix + "" + FormatClause(f) == explainPrefix + " FORMAT=\"" + f + "\"";
    assert explainPrefix + " ANALYZE" + FormatClause(f) == explainPrefix + " ANALYZE FORMAT=\"" + f + "\"";
  }

  /** Each of TiDB's formats is accepted as given. */
  lemma ExplainSupportedFormat(explainPrefix: string, f: string)
    requires f in Features.SupportedExplainFormats
    ensures ExplainQueryPrefix(explainPrefix, Features.SupportedExplainFormats, Some(f), [])
      == Ok(explainPrefix + " FORMAT=\"" + f + "\"")
    ensures ExplainQueryPrefix(explainPrefix, Features.SupportedExplainFormats, Some(f), [ExplainOption("analyze", true)])
      == Ok(explainPrefix + " ANALYZE FORMAT=\"" + f + "\"")
  {
    SupportedFormatsAreUpperCase(f);
    ExplainAcceptedFormat(explainPrefix, Features.SupportedExplainFormats, f);
  }

  /** The check ignores case but the clause keeps the caller's spelling:
      a format is accepted exactly when its upper-case form is. */
  lemma ExplainCaseInsensitive(explainPrefix: string, supported: seq<string>, f: string, options: seq<ExplainOption>)
    requires f != ""
    ensures ExplainQueryPrefix(explainPrefix, supported, Some(f), options).Ok?
      <==> ExplainQueryPrefix(explainPrefix, supported, Some(Upper(f)), options).Ok?
    ensures Upper(f) != "TEXT" && ExplainQueryPrefix(explainPrefix, supported, Some(f), options).Ok? ==>
      EndsWith(ExplainQueryPrefix(explainPrefix, supported, Some(f), options).value, FormatClause(f))
  {
    UpperIdempotent(f);
    assert Upper(f) != "";
  }

  /** A bad format is reported even when unknown options are passed too. */
  lemma ExplainFormatCheckedFirst(explainPrefix: string, supported: seq<string>, f: string, options: seq<ExplainOption>)
    requires Upper(EffectiveFormat(Some(f))) !in supported
    ensures ExplainQueryPrefix(explainPrefix, supported, Some(f), options)
      == Err(UnrecognizedFormat(Upper(EffectiveFormat(Some(f))), supported))
  {
  }

  /** TiDB's formats, listed in sorted order. */
  const SortedExplainFormats: seq<string> := ["BRIEF", "DOT", "ROW", "TIDB_JSON", "TRADITIONAL"]

  /** Consecutive entries of the sorted list are in order. */
  lemma SortedExplainFormatsSteps()
    ensures StrLessEq("BRIEF", "DOT") && StrLessEq("DOT", "ROW") && StrLessEq("ROW", "TIDB_JSON")
    ensures StrLessEq("TIDB_JSON", "TRADITIONAL")
  {
    var a, b := CodePoints("TIDB_JSON"), CodePoints("TRADITIONAL");
    assert a[0] == b[0] && a[1..][0] < b[1..][0];
  }

  lemma SortedExplainFormatsOrdered()
    ensures Sorted(SortedExplainFormats)
  {
    var s := SortedExplainFormats;
    SortedExplainFormatsSteps();
    forall i, j | 0 <= i < j < |s| ensures StrLessEq(s[i], s[j]) {
      if j == i + 2 {
        StrTransitive(s[i], s[i + 1], s[j]);
      } else if j == i + 3 {
        StrTransitive(s[i], s[i + 1], s[i + 2]);
        StrTransitive(s[i], s[i + 2], s[j]);
      } else if j == i + 4 {
        StrTransitive(s[0], s[1], s[2]);
        StrTransitive(s[0], s[2], s[3]);
        StrTransitive(s[0], s[3], s[4]);
      }
    }
  }

  /** A sorted rearrangement of a list is what `sorted` returns. */
  lemma SortIsTheSortedPermutation(xs: seq<string>, s: seq<string>)
    requires Sorted(s) && multiset(s) == multiset(xs)
    ensures Sort(xs) == s
  {
    SortedUnique(Sort(xs), s);
  }

  lemma SortedExplainFormatsAreSorted()
    ensures Sort(Features.SupportedExplainFormats) == SortedExplainFormats
  {
    SortedExplainFormatsOrdered();
    assert multiset(SortedExplainFormats) == multiset(Features.SupportedExplainFormats);
    SortIsTheSortedPermutation(Features.SupportedExplainFormats, SortedExplainFormats);
  }

  /** A format outside a non-empty list is rejected with the sorted list. */
  lemma ExplainRejectedFormat(explainPrefix: string, supported: seq<string>, f: string, options: seq<ExplainOption>)
    requires f != "" && Upper(f) != "TEXT" && Upper(f) !in supported && |supported| > 0
    ensures ExplainQueryPrefix(explainPrefix, supported, Some(f), options)
      == Err(ValueError(Upper(f) + " is not a recognized format. Allowed formats: " + Join(Sort(supported), ", ")))
  {
  }

  /** An unsupported format names TiDB's five formats in sorted order. */
  lemma ExplainUnsupportedFormatMessage(explainPrefix: string, f: string, options: seq<ExplainOption>)
    requires f != "" && Upper(f) != "TEXT" && Upper(f) !in Features.SupportedExplainFormats
    ensures ExplainQueryPrefix(explainPrefix, Features.SupportedExplainFormats, Some(f), options)
      == Err(ValueError(Upper(f) + " is not a recognized format. Allowed formats: " + Join(SortedExplainFormats, ", ")))
  {
    ExplainRejectedFormat(explainPrefix, Features.SupportedExplainFormats, f, options);
    SortedExplainFormatsAreSorted();
  }

  /** With an accepted format, an option other than `analyze` is refused
      by name. */
  lemma ExplainRejectsOption(explainPrefix: string, supported: seq<string>, format: Option<string>, name: string, truthy: bool)
    requires Upper(EffectiveFormat(format)) in supported && name != "analyze"
    ensures ExplainQueryPrefix(explainPrefix, supported, format, [ExplainOption(name, truthy)])
      == Err(ValueError("Unknown options: " + name))
  {
    var options := [ExplainOption(name, truthy)];
    assert options[1..] == [];
    assert UnknownOptions(options) == [name];
    SortIsTheSortedPermutation([name], [name]);
  }

  /** The default format is accepted, so an unknown option alone is what
      `explain` reports. */
  lemma ExplainUnknownOption(explainPrefix: string, name: string, truthy: bool)
    requires name != "analyze"
    ensures ExplainQueryPrefix(explainPrefix, Features.SupportedExplainFormats, None, [ExplainOption(name, truthy)])
      == Err(ValueError("Unknown options: " + name))
  {
    SupportedFormatsAreUpperCase("ROW");
    ExplainRejectsOption(explainPrefix, Features.SupportedExplainFormats, None, name, truthy);
  }

  /** `regex_lookup`: case-sensitive matching for `regex` through `BINARY`,
      plain `REGEXP` for every other lookup. */
  function RegexLookup(lookupType: string): (r: string)
    ensures r == "%s REGEXP BINARY %s" <==> lookupType == "regex"
    ensures r == "%s REGEXP BINARY %s" || r == "%s REGEXP %s"
  {
    if lookupType == "regex" then "%s REGEXP BINARY %s" else "%s REGEXP %s"
  }
}

=== FILE: pyvalue.dfy ===
/** A Python value given as a field option: `None`, an `int`, a `str`, or any
    other object (shown by its `str()` text). */
module PyValue {
  import opened Results
  import opened Numbers

  datatype Value =
    | NoneValue
    | IntValue(i: int)
    | StrValue(s: string)
    | OtherValue(text: string)

  /** `int(v)`: `None` and objects that are neither numbers, text nor
      bytes-like raise `TypeError`; text is parsed and may raise
      `ValueError`. */
  function ToInt(v: Value): (r: Result<int>)
    ensures r.Err? && r.error.TypeError? <==> v.NoneValue? || v.OtherValue?
    ensures v.IntValue? ==> r == Ok(v.i)
    ensures v.StrValue? ==> r == ParseInt(v.s)
  {
    match v
    case NoneValue => Err(TypeError("int() argument must be a string, a bytes-like object or a real number, not 'NoneType'"))
    case IntValue(i) => Ok(i)
    case StrValue(s) => ParseInt(s)
    case OtherValue(_) => Err(TypeError("int() argument must be a string, a bytes-like object or a real number"))
  }

  /** `str(v)`, which is also what `"%s" % v` inserts. */
  function Str(v: Value): string {
    match v
    case NoneValue => "None"
    case IntValue(i) => IntToString(i)
    case StrValue(s) => s
    case OtherValue(t) => t
  }
}

=== FILE: results.dfy ===
/** Outcomes of the adapter's operations: a value, or the Python exception the
    source raises instead. Usable with `:-`. */
module Results {

  /** The exception kinds the modelled code raises or lets escape. */
  datatype PyError =
    | ValueError(message: string)
    | TypeError(message: string)
    | KeyError(key: string)
      /** A bare `Exception(...)`, used for configuration failures. */
    | ConfigError(message: string)

  datatype Result<+T> = Ok(value: T) | Err(error: PyError) {

    predicate IsFailure() {
      Err?
    }

    function PropagateFailure<U>(): Result<U>
      requires Err?
    {
      Err(error)
    }

    function Extract(): T
      requires Ok?
    {
      value
    }
  }

  /** Python's `None`-or-value. */
  datatype Option<+T> = None | Some(value: T)
}

=== FILE: schema.dfy ===
/** `DatabaseSchemaEditor`: the DDL that differs from MySQL's because TiDB
    applies one schema change per statement. */
module Schema {
  import opened Results
  import opened Strings
  import opened Numbers
  import opened Formatting
  import opened PyValue

  /** There is no template for adding a column with its foreign key. */
  const SqlCreateColumnInlineFk: Option<string> := None

  /** `ALTER TABLE %(table)s DROP CHECK %(name)s`. */
  const SqlDeleteCheck: string := "ALTER TABLE " + Placeholder("table") + " DROP CHECK " + Placeholder("name")

  /** `ALTER TABLE %(table)s CHANGE %(old_column)s %(new_column)s %(type)s`. */
  const SqlRenameColumn: string :=
    "ALTER TABLE " + Placeholder("table") + " CHANGE " + Placeholder("old_column")
    + " " + Placeholder("new_column") + " " + Placeholder("type")

  /** Defaults on BLOB, TEXT and JSON columns are never emitted. */
  const SupportsLimitedDataTypeDefaults: bool := false

  lemma FormatLastPlaceholder(key: string, args: map<string, string>)
    requires ')' !in key && key in args
    ensures Format(Placeholder(key), args) == Ok(args[key])
  {
    FormatPlaceholder(key, "", args);
    assert Placeholder(key) + "" == Placeholder(key);
    assert args[key] + "" == args[key];
  }

  /** Text and a placeholder, then what follows. */
  lemma FormatStep(text: string, key: string, rest: string, args: map<string, string>)
    requires '%' !in text && ')' !in key && key in args && Format(rest, args).Ok?
    ensures Format(text + (Placeholder(key) + rest), args) == Ok(text + (args[key] + Format(rest, args).value))
  {
    FormatPlaceholder(key, rest, args);
    FormatLiteral(text, Placeholder(key) + rest, args);
  }

  lemma DeleteCheckPieces()
    ensures SqlDeleteCheck == "ALTER TABLE " + (Placeholder("table") + (" DROP CHECK " + Placeholder("name")))
  {
  }

  lemma NoPercent()
    ensures '%' !in "ALTER TABLE " && '%' !in " DROP CHECK " && '%' !in " CHANGE " && '%' !in " "
    ensures ')' !in "table" && ')' !in "name" && ')' !in "old_column" && ')' !in "new_column" && ')' !in "type"
  {
  }

  /** Dropping a check constraint renders `ALTER TABLE t DROP CHECK n`. */
  lemma DeleteCheckStatement(table: string, name: string)
    ensures Format(SqlDeleteCheck, map["table" := table, "name" := name])
      == Ok("ALTER TABLE " + (table + (" DROP CHECK " + name)))
  {
    var args := map["table" := table, "name" := name];
    DeleteCheckPieces();
    NoPercent();
    FormatLastPlaceholder("name", args);
    FormatLiteral(" DROP CHECK ", Placeholder("name"), args);
    FormatStep("ALTER TABLE ", "table", " DROP CHECK " + Placeholder("name"), args);
  }

  /** Without a constraint name the template raises `KeyError`. */
  lemma DeleteCheckNeedsName(table: string)
    ensures Format(SqlDeleteCheck, map["table" := table]) == Err(KeyError("name"))
  {
    var args := map["table" := table];
    DeleteCheckPieces();
    FormatMissingKey("name", "", args);
    assert Placeholder("name") + "" == Placeholder("name");
    FormatLiteral(" DROP CHECK ", Placeholder("name"), args);
    FormatPlaceholder("table", " DROP CHECK " + Placeholder("name"), args);
    FormatLiteral("ALTER TABLE ", Placeholder("table") + (" DROP CHECK " + Placeholder("name")), args);
  }

  lemma RenameColumnPieces()
    ensures SqlRenameColumn
      == "ALTER TABLE " + (Placeholder("table") + (" CHANGE " + (Placeholder("old_column")
        + (" " + (Placeholder("new_column") + (" " + Placeholder("type")))))))
  {
  }

  /** Renaming a column restates its type: `CHANGE old new type`. */
  lemma RenameColumnStatement(table: string, oldColumn: string, newColumn: string, columnType: string)
    ensures Format(SqlRenameColumn, map["table" := table, "old_column" := oldColumn, "new_column" := newColumn, "type" := columnType])
      == Ok("ALTER TABLE " + (table + (" CHANGE " + (oldColumn + (" " + (newColumn + (" " + columnType)))))))
  {
    var args := map["table" := table, "old_column" := oldColumn, "new_column" := newColumn, "type" := columnType];
    var t2 := " " + Placeholder("type");
    var t1 := " " + (Placeholder("new_column") + t2);
    var t0 := " CHANGE " + (Placeholder("old_column") + t1);
    RenameColumnPieces();
    NoPercent();
    FormatLastPlaceholder("type", args);
    FormatLiteral(" ", Placeholder("type"), args);
    FormatStep(" ", "new_column", t2, args);
    FormatStep(" CHANGE ", "old_column", t1, args);
    FormatStep("ALTER TABLE ", "table", t0, args);
  }

  /** What the editor reads of a model field. `uniqueFlag` is Django's
      `_unique` attribute; `limitedDataType` is the MySQL editor's
      `_is_limited_data_type`: a BLOB, TEXT or JSON column. */
  datatype SchemaField = SchemaField(
    column: string,
    uniqueFlag: bool,
    primaryKey: bool,
    dbIndex: bool,
    internalType: string,
    dbConstraint: bool,
    limitedDataType: bool)
  {
    /** Django's `Field.unique`: `_unique or primary_key`. */
    predicate Unique() {
      uniqueFlag || primaryKey
    }
  }

  /** `skip_default_on_alter`. */
  function SkipDefaultOnAlter(f: SchemaField): (r: bool)
    ensures r <==> f.limitedDataType
  {
    if f.limitedDataType then true else false
  }

  /** `_field_should_be_indexed`: an index is created only for an indexed,
      non-unique field that is not a constrained foreign key and not a
      BLOB, TEXT or JSON column. */
  function FieldShouldBeIndexed(f: SchemaField): (r: bool)
    ensures r ==> f.dbIndex && !f.Unique() && !f.limitedDataType
    ensures r ==> f.internalType != "ForeignKey" || !f.dbConstraint
    ensures f.dbIndex && !f.Unique() && !f.limitedDataType && (f.internalType != "ForeignKey" || !f.dbConstraint) ==> r
  {
    if !f.dbIndex || f.Unique() then false
    else if f.internalType == "ForeignKey" && f.dbConstraint then false
    else !f.limitedDataType
  }

  /** A column whose default is skipped on alter is never indexed either. */
  lemma LimitedColumnsNotIndexed(f: SchemaField)
    requires SkipDefaultOnAlter(f)
    ensures !FieldShouldBeIndexed(f)
  {
  }

  /** The cases of the adapter's DDL tests: an indexed `CharField`, and a
      foreign key without a database constraint, are indexed; a foreign
      key with its constraint is not, since the constraint brings one. */
  lemma IndexingExamples(column: string)
    ensures FieldShouldBeIndexed(SchemaField(column, false, false, true, "CharField", true, false))
    ensures FieldShouldBeIndexed(SchemaField(column, false, false, true, "ForeignKey", false, false))
    ensures !FieldShouldBeIndexed(SchemaField(column, false, false, true, "ForeignKey", true, false))
  {
  }

  /** One DDL statement the editor issues. */
  datatype DdlStep =
    | BaseAddField(field: SchemaField)
    | CreateUnique(field: SchemaField)

  /** `add_field`: for a unique field `_unique` is cleared, the column is
      added, `_unique` is set, and the unique constraint is created in a
      second statement. Other fields are a single base add. A primary key
      stays unique during the base add, and its `_unique` ends up set. */
  function AddField(f: SchemaField): (r: (seq<DdlStep>, SchemaField))
    ensures |r.0| == (if f.Unique() then 2 else 1)
    ensures r.0[0].BaseAddField? && r.0[0].field.column == f.column
    ensures r.0[0].field.Unique() <==> f.primaryKey
    ensures r.0[0].field.(uniqueFlag := f.uniqueFlag) == f
    ensures f.Unique() ==> r.0[1] == CreateUnique(r.1)
    ensures r.1.uniqueFlag <==> f.Unique()
    ensures r.1.(uniqueFlag := f.uniqueFlag) == f
    ensures !f.primaryKey ==> forall i :: 0 <= i < |r.0| ==> !(r.0[i].BaseAddField? && r.0[i].field.Unique())
  {
    if f.Unique() then
      var after := f.(uniqueFlag := true);
      ([BaseAddField(f.(uniqueFlag := false)), CreateUnique(after)], after)
    else
      ([BaseAddField(f)], f)
  }

  /** A primary key without `unique=True` comes out of `add_field` with
      `_unique` set, and its unique constraint is created on top of the key. */
  lemma PrimaryKeyBecomesUnique(f: SchemaField)
    requires f.primaryKey && !f.uniqueFlag
    ensures AddField(f).1 != f && AddField(f).1.uniqueFlag
    ensures AddField(f).0 == [BaseAddField(f), CreateUnique(f.(uniqueFlag := true))]
  {
  }

  /** The part of a table's schema these statements change. */
  datatype TableState = TableState(columns: set<string>, uniqueColumns: set<string>)

  function ApplyStep(s: TableState, step: DdlStep): TableState {
    match step
    case BaseAddField(g) =>
      TableState(s.columns + {g.column}, if g.Unique() then s.uniqueColumns + {g.column} else s.uniqueColumns)
    case CreateUnique(g) =>
      s.(uniqueColumns := s.uniqueColumns + {g.column})
  }

  function ApplyAll(s: TableState, steps: seq<DdlStep>): TableState
    decreases |steps|
  {
    if |steps| == 0 then s else ApplyAll(ApplyStep(s, steps[0]), steps[1..])
  }

  /** The two statements leave the table as MySQL's single combined
      statement would. */
  lemma AddFieldSameAsCombined(s: TableState, f: SchemaField)
    ensures ApplyAll(s, AddField(f).0) == ApplyStep(s, BaseAddField(f))
  {
    var steps := AddField(f).0;
    if f.Unique() {
      var s1 := ApplyStep(s, steps[0]);
      var rest := steps[1..];
      assert rest[0] == steps[1] && rest[1..] == [];
      assert ApplyAll(s, steps) == ApplyAll(s1, rest);
      assert ApplyAll(s1, rest) == ApplyAll(ApplyStep(s1, rest[0]), []);
    } else {
      assert steps[1..] == [];
    }
  }

  const AutoIdCacheKeyword := " AUTO_ID_CACHE "

  /** `table_sql`: the `tidb_auto_id_cache` option, when set, is appended
      as text; the parameters are untouched. */
  function TableSql(sql: string, params: seq<string>, autoIdCache: Value): (r: (string, seq<string>))
    ensures r.1 == params
    ensures StartsWith(r.0, sql)
    ensures r.0 == sql <==> autoIdCache.NoneValue?
    ensures !autoIdCache.NoneValue? ==> r.0[|sql|..] == AutoIdCacheKeyword + Str(autoIdCache)
  {
    if autoIdCache.NoneValue? then (sql, params)
    else (sql + AutoIdCacheKeyword + Str(autoIdCache), params)
  }

  /** An integer cache size reads back from the statement's tail. */
  lemma AutoIdCacheReadBack(sql: string, params: seq<string>, n: int)
    ensures var t := TableSql(sql, params, IntValue(n)).0;
      && |t| > |sql| + |AutoIdCacheKeyword|
      && t[|sql|..|sql| + |AutoIdCacheKeyword|] == AutoIdCacheKeyword
      && ParseInt(t[|sql| + |AutoIdCacheKeyword|..]) == Ok(n)
  {
    var t := TableSql(sql, params, IntValue(n)).0;
    assert t[|sql| + |AutoIdCacheKeyword|..] == IntToString(n);
    ParseIntRoundTrip(n);
  }

  /** Text is not checked here: an invalid setting reaches the server. */
  lemma AutoIdCacheTextPassesThrough(sql: string, params: seq<string>)
    ensures TableSql(sql, params, StrValue("invalid")).0 == sql + " AUTO_ID_CACHE invalid"
  {
  }
}

=== FILE: session.dfy ===
/** The server variables a connection reads once (`tidb_server_data`) and
    the SQL mode derived from them (`DatabaseWrapper.sql_mode`). */
module Session {
  import opened Results
  import opened Strings

  /** One row of `SELECT VERSION(), @@sql_mode, ...`, with the three flags
      already converted by `bool(...)`. */
  datatype ServerData = ServerData(
    version: string,
    sqlMode: Option<string>,
    defaultStorageEngine: string,
    sqlAutoIsNull: bool,
    lowerCaseTableNames: bool,
    hasZoneinfoDatabase: bool)

  /** `set(sql_mode.split(",") if sql_mode else ())`: a missing or empty mode
      is the empty set; otherwise every comma-separated token, duplicates
      collapsed. */
  function SqlMode(raw: Option<string>): (r: set<string>)
    ensures raw == None || raw == Some("") ==> r == {}
    ensures forall t :: t in r <==> raw.Some? && raw.value != "" && t in Split(raw.value, ',')
  {
    match raw
    case None => {}
    case Some(s) =>
      if s == "" then {}
      else set t | t in Split(s, ',')
  }

  /** A mode written as a comma-separated list of flags reads back as
      exactly those flags. */
  lemma SqlModeOfFlags(flags: seq<string>)
    requires |flags| >= 1 && flags != [""]
    requires forall i :: 0 <= i < |flags| ==> ',' !in flags[i]
    ensures SqlMode(Some(Join(flags, ","))) == set f | f in flags
  {
    SplitJoin(flags, ',');
  }
}

=== FILE: strings.dfy ===
/** Python's `str` operations that the adapter uses, on `seq<char>`. */
module Strings {
  import Lexicographic

  /** `s.split(sep)` with an explicit one-character separator. Unlike the
      argument-less form it never drops empty pieces, so the result is never
      empty and `"".split(sep)` is `[""]`. */
  function Split(s: string, sep: char): (r: seq<string>)
    ensures |r| >= 1
    ensures forall i :: 0 <= i < |r| ==> sep !in r[i]
    decreases |s|
  {
    if |s| == 0 then [""]
    else if s[0] == sep then [""] + Split(s[1..], sep)
    else
      var rest := Split(s[1..], sep);
      [[s[0]] + rest[0]] + rest[1..]
  }

  /** `sep.join(parts)`. */
  function Join(parts: seq<string>, sep: string): string
  {
    if |parts| == 0 then ""
    else if |parts| == 1 then parts[0]
    else parts[0] + sep + Join(parts[1..], sep)
  }

  /** Joining the pieces of a split with the separator gives back the string. */
  lemma {:induction false} JoinSplit(s: string, sep: char)
    ensures Join(Split(s, sep), [sep]) == s
    decreases |s|
  {
    if |s| > 0 {
      var rest := Split(s[1..], sep);
      JoinSplit(s[1..], sep);
      if s[0] == sep {
        assert ([""] + rest)[1..] == rest;
      } else {
        var r := [[s[0]] + rest[0]] + rest[1..];
        assert r[1..] == rest[1..];
        if |rest| > 1 {
          assert Join(rest, [sep]) == rest[0] + [sep] + Join(rest[1..], [sep]);
        }
        assert s == [s[0]] + s[1..];
      }
    }
  }

  lemma {:induction false} SplitWithoutSeparator(a: string, sep: char)
    requires sep !in a
    ensures Split(a, sep) == [a]
    decreases |a|
  {
    if |a| > 0 {
      SplitWithoutSeparator(a[1..], sep);
      assert a == [a[0]] + a[1..];
    }
  }

  /** A separator-free head splits off as exactly one piece. */
  lemma {:induction false} SplitAtFirstSeparator(a: string, b: string, sep: char)
    requires sep !in a
    ensures Split(a + [sep] + b, sep) == [a] + Split(b, sep)
    decreases |a|
  {
    var s := a + [sep] + b;
    if |a| == 0 {
      assert s[1..] == b;
    } else {
      assert s[1..] == a[1..] + [sep] + b;
      SplitAtFirstSeparator(a[1..], b, sep);
      assert [a[0]] + a[1..] == a;
    }
  }

  /** Splitting a join of separator-free pieces gives back the pieces. */
  lemma {:induction false} SplitJoin(parts: seq<string>, sep: char)
    requires |parts| >= 1
    requires forall i :: 0 <= i < |parts| ==> sep !in parts[i]
    ensures Split(Join(parts, [sep]), sep) == parts
    decreases |parts|
  {
    if |parts| == 1 {
      SplitWithoutSeparator(parts[0], sep);
    } else {
      SplitJoin(parts[1..], sep);
      SplitAtFirstSeparator(parts[0], Join(parts[1..], [sep]), sep);
      assert parts == [parts[0]] + parts[1..];
    }
  }

  predicate StartsWith(s: string, prefix: string) {
    |prefix| <= |s| && s[..|prefix|] == prefix
  }

  predicate EndsWith(s: string, suffix: string) {
    |suffix| <= |s| && s[|s| - |suffix|..] == suffix
  }

  /* ---------------- case mapping ---------------- */

  function UpperChar(c: char): char {
    if 'a' <= c <= 'z' then (c as int - 32) as char else c
  }

  /** `s.upper()` for ASCII letters; other characters are kept. */
  function Upper(s: string): (r: string)
    ensures |r| == |s|
    ensures forall i :: 0 <= i < |s| ==> r[i] == UpperChar(s[i])
  {
    seq(|s|, i requires 0 <= i < |s| => UpperChar(s[i]))
  }

  /** No ASCII lower-case letter occurs in `s`. */
  predicate NoLowerCase(s: string) {
    forall i :: 0 <= i < |s| ==> !('a' <= s[i] <= 'z')
  }

  lemma UpperOfNoLowerCase(s: string)
    requires NoLowerCase(s)
    ensures Upper(s) == s
  {
  }

  lemma UpperIdempotent(s: string)
    ensures Upper(Upper(s)) == Upper(s)
  {
  }

  /* ---------------- whitespace ---------------- */

  /** The whitespace `int()` skips around a literal: CPython's
      `Py_ISSPACE`, that is tab, line feed, vertical tab, form feed,
      carriage return and space. The separators 0x1c to 0x1f, for which
      `str.isspace()` also holds, are not skipped. */
  predicate IsSpace(c: char) {
    (9 <= c as int <= 13) || c == ' '
  }

  function StripLeft(s: string): (r: string)
    ensures |r| <= |s|
    ensures |r| > 0 ==> !IsSpace(r[0])
    decreases |s|
  {
    if |s| > 0 && IsSpace(s[0]) then StripLeft(s[1..]) else s
  }

  function StripRight(s: string): (r: string)
    ensures |r| <= |s| && r == s[..|r|]
    ensures |r| > 0 ==> !IsSpace(r[|r| - 1])
    decreases |s|
  {
    if |s| > 0 && IsSpace(s[|s| - 1]) then StripRight(s[..|s| - 1]) else s
  }

  /** The text `int()` parses: `s` without leading and trailing `IsSpace`
      characters. */
  function Strip(s: string): (r: string)
    ensures |r| <= |s|
    ensures |r| > 0 ==> !IsSpace(r[0]) && !IsSpace(r[|r| - 1])
  {
    StripRight(StripLeft(s))
  }

  lemma StripWithoutSpace(s: string)
    requires forall i :: 0 <= i < |s| ==> !IsSpace(s[i])
    ensures Strip(s) == s
  {
  }

  /** `s.lstrip(c)`: every leading `c` is removed. */
  function LStrip(s: string, c: char): (r: string)
    ensures |r| <= |s|
    ensures |r| > 0 ==> r[0] != c
    decreases |s|
  {
    if |s| > 0 && s[0] == c then LStrip(s[1..], c) else s
  }

  function Repeat(c: char, n: nat): (r: string)
    ensures |r| == n && forall i :: 0 <= i < n ==> r[i] == c
  {
    seq(n, _ => c)
  }

  lemma {:induction false} LStripRepeat(c: char, n: nat, s: string)
    requires |s| == 0 || s[0] != c
    ensures LStrip(Repeat(c, n) + s, c) == s
    decreases n
  {
    if n > 0 {
      assert (Repeat(c, n) + s)[1..] == Repeat(c, n - 1) + s;
      LStripRepeat(c, n - 1, s);
    } else {
      assert Repeat(c, n) + s == s;
    }
  }

  /* ---------------- repr ---------------- */

  function HexDigit(d: nat): char
    requires d < 16
  {
    if d < 10 then ('0' as int + d) as char else ('a' as int + d - 10) as char
  }

  /** How `repr` writes one character inside the chosen quotes. */
  function EscapeChar(c: char, quote: char): string {
    if c == quote || c == '\\' then ['\\', c]
    else if c == '\t' then "\\t"
    else if c == '\n' then "\\n"
    else if c == '\r' then "\\r"
    else if c < ' ' || c as int == 127 then
      ['\\', 'x', HexDigit(c as int / 16), HexDigit(c as int % 16)]
    else [c]
  }

  function EscapeAll(s: string, quote: char): string
    decreases |s|
  {
    if |s| == 0 then "" else EscapeChar(s[0], quote) + EscapeAll(s[1..], quote)
  }

  /** `repr(s)`: single quotes unless the text holds a single quote and no
      double quote. */
  function Repr(s: string): (r: string)
    ensures |r| >= 2 && r[0] == r[|r| - 1] && (r[0] == '\'' || r[0] == '"')
  {
    var quote := if '\'' in s && '"' !in s then '"' else '\'';
    [quote] + EscapeAll(s, quote) + [quote]
  }

  /** Text that `repr` shows verbatim. */
  predicate Plain(s: string) {
    forall i :: 0 <= i < |s| ==> ' ' <= s[i] && s[i] as int != 127 && s[i] != '\'' && s[i] != '"' && s[i] != '\\'
  }

  lemma {:induction false} EscapePlain(s: string, quote: char)
    requires Plain(s) && (quote == '\'' || quote == '"')
    ensures EscapeAll(s, quote) == s
    decreases |s|
  {
    if |s| > 0 {
      EscapePlain(s[1..], quote);
      assert s == [s[0]] + s[1..];
    }
  }

  /** Plain text is quoted with single quotes and otherwise unchanged. */
  lemma ReprPlain(s: string)
    requires Plain(s)
    ensures Repr(s) == "'" + s + "'"
  {
    assert forall i :: 0 <= i < |s| ==> s[i] != '\'';
    EscapePlain(s, '\'');
  }

  /* ---------------- ordering and sorting ---------------- */

  function CodePoints(s: string): (r: seq<int>)
    ensures |r| == |s| && forall i :: 0 <= i < |s| ==> r[i] == s[i] as int
  {
    seq(|s|, i requires 0 <= i < |s| => s[i] as int)
  }

  lemma CodePointsInjective(a: string, b: string)
    requires CodePoints(a) == CodePoints(b)
    ensures a == b
  {
    assert |a| == |b|;
    forall i | 0 <= i < |a| ensures a[i] == b[i] {
      assert CodePoints(a)[i] == CodePoints(b)[i];
    }
  }

  /** Python's `<` on `str`: code point by code point. */
  predicate StrLessEq(a: string, b: string) {
    Lexicographic.LessEq(CodePoints(a), CodePoints(b))
  }

  lemma StrTotal(a: string, b: string)
    ensures StrLessEq(a, b) || StrLessEq(b, a)
  {
    Lexicographic.Trichotomy(CodePoints(a), CodePoints(b));
  }

  lemma StrAntisymmetric(a: string, b: string)
    requires StrLessEq(a, b) && StrLessEq(b, a)
    ensures a == b
  {
    if Lexicographic.Less(CodePoints(a), CodePoints(b)) {
      Lexicographic.Asymmetric(CodePoints(a), CodePoints(b));
    }
    CodePointsInjective(a, b);
  }

  lemma StrTransitive(a: string, b: string, c: string)
    requires StrLessEq(a, b) && StrLessEq(b, c)
    ensures StrLessEq(a, c)
  {
    Lexicographic.LessEqTransitive(CodePoints(a), CodePoints(b), CodePoints(c));
  }

  predicate Sorted(s: seq<string>) {
    forall i, j :: 0 <= i < j < |s| ==> StrLessEq(s[i], s[j])
  }

  /** A string no greater than any element of a sorted list can go in
      front of it. */
  lemma ConsSorted(h: string, t: seq<string>)
    requires Sorted(t)
    requires forall j :: 0 <= j < |t| ==> StrLessEq(h, t[j])
    ensures Sorted([h] + t)
  {
    var r := [h] + t;
    forall i, j | 0 <= i < j < |r| ensures StrLessEq(r[i], r[j]) {
      assert r[j] == t[j - 1];
      if i > 0 { assert r[i] == t[i - 1]; }
    }
  }

  /** A string no greater than a sorted list's head is no greater than any
      of its elements. */
  lemma BelowHead(x: string, xs: seq<string>)
    requires Sorted(xs) && |xs| > 0 && StrLessEq(x, xs[0])
    ensures forall j :: 0 <= j < |xs| ==> StrLessEq(x, xs[j])
  {
    forall j | 0 <= j < |xs| ensures StrLessEq(x, xs[j]) {
      if j > 0 { StrTransitive(x, xs[0], xs[j]); }
    }
  }

  /** When `x` goes after the head, the head is no greater than anything
      the rest becomes once `x` is inserted. */
  lemma HeadBelowInsertedTail(x: string, xs: seq<string>, tail: seq<string>)
    requires Sorted(xs) && |xs| > 0 && !StrLessEq(x, xs[0])
    requires multiset(tail) == multiset(xs[1..]) + multiset{x}
    ensures forall j :: 0 <= j < |tail| ==> StrLessEq(xs[0], tail[j])
  {
    StrTotal(x, xs[0]);
    forall j | 0 <= j < |tail| ensures StrLessEq(xs[0], tail[j]) {
      var e := tail[j];
      assert e in multiset(tail);
      if e != x {
        assert e in multiset(xs[1..]);
        var k :| 0 <= k < |xs[1..]| && xs[1..][k] == e;
        assert xs[k + 1] == e;
      }
    }
  }

  function Insert(x: string, xs: seq<string>): (r: seq<string>)
    requires Sorted(xs)
    ensures Sorted(r)
    ensures multiset(r) == multiset(xs) + multiset{x}
    decreases |xs|
  {
    if |xs| == 0 then [x]
    else if StrLessEq(x, xs[0]) then
      BelowHead(x, xs);
      ConsSorted(x, xs);
      [x] + xs
    else
      assert Sorted(xs[1..]);
      var tail := Insert(x, xs[1..]);
      HeadBelowInsertedTail(x, xs, tail);
      ConsSorted(xs[0], tail);
      assert xs == [xs[0]] + xs[1..];
      [xs[0]] + tail
  }

  /** `sorted(xs)` for strings. */
  function Sort(xs: seq<string>): (r: seq<string>)
    ensures Sorted(r)
    ensures multiset(r) == multiset(xs)
    decreases |xs|
  {
    if |xs| == 0 then []
    else
      assert xs == [xs[0]] + xs[1..];
      Insert(xs[0], Sort(xs[1..]))
  }

  lemma SortedHeadIsLeast(a: seq<string>, e: string)
    requires Sorted(a) && e in multiset(a)
    ensures StrLessEq(a[0], e)
  {
    var i :| 0 <= i < |a| && a[i] == e;
    if i == 0 {
      assert Lexicographic.LessEq(CodePoints(e), CodePoints(e));
    }
  }

  lemma SortedTail(a: seq<string>)
    requires Sorted(a) && |a| > 0
    ensures Sorted(a[1..])
  {
    forall i, j | 0 <= i < j < |a| - 1 ensures StrLessEq(a[1..][i], a[1..][j]) {
      assert a[1..][i] == a[i + 1] && a[1..][j] == a[j + 1];
    }
  }

  /** Two sorted permutations of each other start with the same string. */
  lemma SortedPermutationsShareHead(a: seq<string>, b: seq<string>)
    requires Sorted(a) && Sorted(b) && multiset(a) == multiset(b) && |a| > 0
    ensures |b| > 0 && a[0] == b[0]
  {
    assert a[0] in multiset(a);
    assert |b| > 0 && b[0] in multiset(b);
    SortedHeadIsLeast(a, b[0]);
    SortedHeadIsLeast(b, a[0]);
    StrAntisymmetric(a[0], b[0]);
  }

  /** Removing an equal head from two permutations leaves permutations. */
  lemma PermutationTails(a: seq<string>, b: seq<string>)
    requires multiset(a) == multiset(b) && |a| > 0 && |b| > 0 && a[0] == b[0]
    ensures multiset(a[1..]) == multiset(b[1..])
  {
    assert a == [a[0]] + a[1..];
    assert b == [b[0]] + b[1..];
    assert multiset(a[1..]) == multiset(a) - multiset{a[0]};
    assert multiset(b[1..]) == multiset(b) - multiset{b[0]};
  }

  /** There is one sorted arrangement of a collection: `sorted` does not
      depend on the order in which a set yields its elements. */
  lemma {:induction false} SortedUnique(a: seq<string>, b: seq<string>)
    requires Sorted(a) && Sorted(b) && multiset(a) == multiset(b)
    ensures a == b
    decreases |a|
  {
    assert |a| == |multiset(a)| == |b|;
    if |a| > 0 {
      SortedPermutationsShareHead(a, b);
      PermutationTails(a, b);
      SortedTail(a);
      SortedTail(b);
      SortedUnique(a[1..], b[1..]);
      assert a == [a[0]] + a[1..] && b == [b[0]] + b[1..];
    }
  }
}

=== FILE: vector.dfy ===
/** `VectorField` and the distance functions: vectors travel to TiDB as the
    text `[x1,x2,...]` and come back the same way. */
module Vector {
  import opened Results
  import opened Strings
  import opened Numbers

  const MaxDimLength: int := 16000
  const MinDimLength: int := 1

  /** One component's `str(float(v))` text, such as `1.0`, `-2.5e-07` or
      `inf`; Python never writes a comma, a bracket or a space in it. */
  predicate FloatText(t: string) {
    |t| > 0 && ',' !in t && '[' !in t && ']' !in t && ' ' !in t
  }

  /** What may be written to a vector column: a list, or a numpy array
      described by its number of axes and whether its dtype is numeric. */
  datatype VectorInput =
    | ListInput(elems: seq<string>)
    | ArrayInput(ndim: nat, numeric: bool, elems: seq<string>)

  /** The text `encode_vector` builds from the component texts. */
  function Bracketed(elems: seq<string>): (r: string)
    ensures |r| >= 2 && r[0] == '[' && r[|r| - 1] == ']'
  {
    "[" + Join(elems, ",") + "]"
  }

  function DimensionMismatch(dim: int, len: nat): PyError {
    ValueError("expected " + IntToString(dim) + " dimensions, not " + IntToString(len))
  }

  /** `encode_vector`: `None` passes through; an array must be
      one-dimensional and numeric; with `dim` given the length must match.
      The text is the bracketed, comma-joined components. */
  function Encode(value: Option<VectorInput>, dim: Option<int>): (r: Result<Option<string>>)
    ensures value.None? ==> r == Ok(None)
    ensures value.Some? && value.value.ArrayInput? && value.value.ndim != 1 ==>
      r == Err(ValueError("expected ndim to be 1"))
    ensures value.Some? && value.value.ArrayInput? && value.value.ndim == 1 && !value.value.numeric ==>
      r == Err(ValueError("dtype must be numeric"))
    ensures r.Err? && value.Some? && value.value.ListInput? ==>
      dim.Some? && r.error == DimensionMismatch(dim.value, |value.value.elems|)
    ensures r.Ok? && value.Some? ==>
      && r.value == Some(Bracketed(value.value.elems))
      && (dim.None? || dim.value == |value.value.elems|)
    ensures value.Some? && dim.Some? && dim.value != |value.value.elems| ==> r.Err?
    ensures r.Err? ==>
      && value.Some?
      && ((value.value.ArrayInput? && (value.value.ndim != 1 || !value.value.numeric))
          || (dim.Some? && dim.value != |value.value.elems|))
  {
    match value
    case None => Ok(None)
    case Some(v) =>
      if v.ArrayInput? && v.ndim != 1 then Err(ValueError("expected ndim to be 1"))
      else if v.ArrayInput? && !v.numeric then Err(ValueError("dtype must be numeric"))
      else if dim.Some? && |v.elems| != dim.value then Err(DimensionMismatch(dim.value, |v.elems|))
      else Ok(Some(Bracketed(v.elems)))
  }

  /** Python's `s[1:-1]`: everything but the first and last character, and
      empty for texts shorter than two. */
  function Inner(s: string): (r: string)
    ensures |s| >= 2 ==> |r| == |s| - 2 && forall i :: 0 <= i < |r| ==> r[i] == s[i + 1]
    ensures |s| < 2 ==> r == ""
  {
    if |s| >= 2 then s[1..|s| - 1] else ""
  }

  /** What numpy raises when a component is empty: `float("")` fails. */
  const EmptyComponentError := ValueError("could not convert string to float: ''")

  /** `decode_vector` on text from the database: the component texts
      between the brackets, split at commas. An empty component cannot be
      converted to a float and raises. */
  function Decode(value: Option<string>): (r: Result<Option<seq<string>>>)
    ensures value.None? ==> r == Ok(None)
    ensures value.Some? ==> (r.Err? <==> "" in Split(Inner(value.value), ','))
    ensures r.Err? ==> r.error == EmptyComponentError
    ensures r.Ok? && value.Some? ==>
      && r.value.Some?
      && Join(r.value.value, ",") == Inner(value.value)
      && forall i :: 0 <= i < |r.value.value| ==> r.value.value[i] != "" && ',' !in r.value.value[i]
  {
    match value
    case None => Ok(None)
    case Some(s) =>
      var parts := Split(Inner(s), ',');
      JoinSplit(Inner(s), ',');
      if "" in parts then Err(EmptyComponentError) else Ok(Some(parts))
  }

  lemma InnerOfBracketed(elems: seq<string>)
    ensures Inner(Bracketed(elems)) == Join(elems, ",")
  {
    var b := Bracketed(elems);
    assert b[1..|b| - 1] == Join(elems, ",");
  }

  /** Reading back what was written gives the same components, for any
      non-empty vector. */
  lemma {:induction false} DecodeEncode(elems: seq<string>, dim: Option<int>)
    requires |elems| >= 1 && forall i :: 0 <= i < |elems| ==> FloatText(elems[i])
    requires dim.None? || dim.value == |elems|
    ensures Encode(Some(ListInput(elems)), dim).Ok?
    ensures Decode(Encode(Some(ListInput(elems)), dim).value) == Ok(Some(elems))
  {
    InnerOfBracketed(elems);
    assert forall i :: 0 <= i < |elems| ==> ',' !in elems[i];
    SplitJoin(elems, ',');
    assert "" !in elems;
  }

  /** The empty vector is written as `[]`, which does not read back: the
      text between the brackets is one empty component. */
  lemma EmptyVector()
    ensures Encode(Some(ListInput([])), None) == Ok(Some("[]"))
    ensures Decode(Some("[]")) == Err(EmptyComponentError)
  {
    assert Join([], ",") == "";
    assert Bracketed([]) == "[]";
    assert Inner("[]") == "";
  }

  /** A three-component list is written as the adapter's tests expect. */
  lemma EncodeThreeComponents()
    ensures Encode(Some(ListInput(["1.0", "2.0", "3.0"])), None) == Ok(Some("[1.0,2.0,3.0]"))
  {
    var e := ["1.0", "2.0", "3.0"];
    assert e[1..][1..] == ["3.0"];
    assert Join(e, ",") == "1.0,2.0,3.0";
    assert Bracketed(e) == "[1.0,2.0,3.0]";
  }

  /** `get_prep_value` never checks the dimension: only a malformed numpy
      array is refused. */
  function GetPrepValue(value: Option<VectorInput>): (r: Result<Option<string>>)
    ensures r.Err? <==> value.Some? && value.value.ArrayInput? && (value.value.ndim != 1 || !value.value.numeric)
    ensures r.Ok? && value.Some? ==> r.value == Some(Bracketed(value.value.elems))
  {
    Encode(value, None)
  }

  /** `db_type`. */
  function DbType(dimensions: Option<int>): (r: string)
    ensures StartsWith(r, "vector<float>")
    ensures dimensions.None? <==> r == "vector<float>"
  {
    if dimensions.None? then "vector<float>"
    else "vector<float>(" + IntToString(dimensions.value) + ")"
  }

  /** The column type names the dimension count, which reads back. */
  lemma DbTypeDimensions(d: int)
    ensures var t := DbType(Some(d));
      && |t| > |"vector<float>("|
      && t[..|"vector<float>("|] == "vector<float>("
      && t[|t| - 1] == ')'
      && ParseInt(t[|"vector<float>("|..|t| - 1]) == Ok(d)
  {
    var t := DbType(Some(d));
    assert t[|"vector<float>("|..|t| - 1] == IntToString(d);
    ParseIntRoundTrip(d);
  }

  const DimensionsError := "Vector dimensions must be in the range [1, 16000]"

  /** `_check_dimensions`: an error only for a given count outside
      `[1, 16000]`. */
  function CheckDimensions(dimensions: Option<int>): (r: seq<string>)
    ensures r == [] <==> dimensions.None? || MinDimLength <= dimensions.value <= MaxDimLength
    ensures r == [] || r == [DimensionsError]
  {
    if dimensions.Some? && (dimensions.value < MinDimLength || dimensions.value > MaxDimLength) then
      [DimensionsError]
    else
      []
  }

  /** `deconstruct`'s keyword arguments. */
  function Deconstruct(dimensions: Option<int>): (kwargs: map<string, int>)
    ensures "dimensions" in kwargs <==> dimensions.Some?
    ensures kwargs.Keys <= {"dimensions"}
  {
    if dimensions.Some? then map["dimensions" := dimensions.value] else map[]
  }

  function Reconstruct(kwargs: map<string, int>): Option<int> {
    if "dimensions" in kwargs then Some(kwargs["dimensions"]) else None
  }

  /** Since the default is `None`, a migration always recreates the field. */
  lemma DeconstructRoundTrip(dimensions: Option<int>)
    ensures Reconstruct(Deconstruct(dimensions)) == dimensions
  {
  }

  /** The four SQL distance functions. */
  datatype Distance = L1 | L2 | Cosine | NegativeInnerProduct

  function FunctionName(d: Distance): (r: string)
    ensures StartsWith(r, "VEC_")
  {
    match d
    case L1 => "VEC_L1_DISTANCE"
    case L2 => "VEC_L2_DISTANCE"
    case Cosine => "VEC_COSINE_DISTANCE"
    case NegativeInnerProduct => "VEC_NEGATIVE_INNER_PRODUCT"
  }

  /** Each distance class calls its own SQL function. */
  lemma FunctionNamesDistinct(a: Distance, b: Distance)
    ensures FunctionName(a) == FunctionName(b) <==> a == b
  {
    if a != b {
      assert FunctionName(a)[4] != FunctionName(b)[4] || FunctionName(a)[5] != FunctionName(b)[5];
    }
  }

  /** An SQL expression argument: a column, another expression, or a
      literal value holding an encoded vector. */
  datatype Expr =
    | FieldRef(name: string)
    | Resolvable(text: string)
    | Literal(encoded: string)

  /** The vector argument: an expression, or plain data to be encoded. */
  datatype VectorArgument = AsExpression(e: Expr) | AsData(input: VectorInput)

  datatype Func = Func(name: string, args: seq<Expr>)

  /** `DistanceBase.__init__`: without a vector the function takes only the
      column (the index form); plain data is encoded into a literal, and
      encoding errors escape. */
  function MakeDistance(d: Distance, expression: Expr, vector: Option<VectorArgument>): (r: Result<Func>)
    ensures r.Ok? ==> r.value.name == FunctionName(d) && |r.value.args| >= 1 && r.value.args[0] == expression
    ensures vector.None? ==> r == Ok(Func(FunctionName(d), [expression]))
    ensures vector.Some? && vector.value.AsExpression? ==> r == Ok(Func(FunctionName(d), [expression, vector.value.e]))
    ensures vector.Some? && vector.value.AsData? ==>
      (r.Ok? <==> Encode(Some(vector.value.input), None).Ok?)
    ensures r.Ok? && vector.Some? && vector.value.AsData? ==>
      r.value.args == [expression, Literal(Bracketed(vector.value.input.elems))]
  {
    match vector
    case None => Ok(Func(FunctionName(d), [expression]))
    case Some(AsExpression(e)) => Ok(Func(FunctionName(d), [expression, e]))
    case Some(AsData(input)) =>
      var encoded :- Encode(Some(input), None);
      Ok(Func(FunctionName(d), [expression, Literal(encoded.value)]))
  }

  /** The literal a distance query carries decodes to the query vector. */
  lemma DistanceLiteralDecodes(d: Distance, column: string, elems: seq<string>)
    requires |elems| >= 1 && forall i :: 0 <= i < |elems| ==> FloatText(elems[i])
    ensures var r := MakeDistance(d, FieldRef(column), Some(AsData(ListInput(elems))));
      && r.Ok? && |r.value.args| == 2 && r.value.args[1].Literal?
      && Decode(Some(r.value.args[1].encoded)) == Ok(Some(elems))
  {
    DecodeEncode(elems, None);
  }
}

=== FILE: version.dfy ===
/** `TiDBVersion`: reads the release number out of the server's `VERSION()`
    text, for example `5.7.25-TiDB-v5.1.0-64-gfb0eaf7b4` reads as (5, 1, 0). */
module Version {
  import opened Results
  import opened Strings
  import opened Numbers

  /** A release number, compared as a Python tuple. */
  type VersionTuple = seq<int>

  /** The parser's state: the tuple from the last successful match. */
  datatype TiDBVersion = TiDBVersion(version: VersionTuple)

  /** A parser that has matched nothing yet holds (0, 0, 0). */
  const Fresh: TiDBVersion := TiDBVersion([0, 0, 0])

  /** What `match` returns, together with the parser's state afterwards. */
  datatype MatchOutcome = MatchOutcome(matched: bool, state: TiDBVersion)

  /** A parser that has never matched reports `(0, 0, 0)`, and a text
      without three segments leaves it so. */
  lemma FreshParserUntilMatched(s: string)
    requires |Split(s, '-')| < 3
    ensures Fresh.version == [0, 0, 0]
    ensures Match(Fresh, s) == Ok(MatchOutcome(false, TiDBVersion([0, 0, 0])))
  {
  }

  /** Part `i` is the first that `int` rejects. */
  ghost predicate FailsFirstAt(parts: seq<string>, i: int) {
    && 0 <= i < |parts|
    && ParseInt(parts[i]).Err?
    && forall j :: 0 <= j < i ==> ParseInt(parts[j]).Ok?
  }

  /** Every part is an integer literal. */
  ghost predicate AllParse(parts: seq<string>) {
    forall i :: 0 <= i < |parts| ==> ParseInt(parts[i]).Ok?
  }

  /** `e` is the error of the first part `int` rejects. */
  ghost predicate RejectsFirst(parts: seq<string>, e: PyError) {
    exists i :: FailsFirstAt(parts, i) && ParseInt(parts[i]) == Err(e)
  }

  /** `tuple(int(x) for x in parts)`: the first part that does not parse
      raises its `ValueError`, and nothing is built. */
  function ParseComponents(parts: seq<string>): (r: Result<VersionTuple>)
    ensures r.Ok? <==> AllParse(parts)
    ensures r.Ok? ==> |r.value| == |parts|
    ensures r.Ok? ==> forall i :: 0 <= i < |parts| ==> ParseInt(parts[i]) == Ok(r.value[i])
    ensures r.Err? ==> RejectsFirst(parts, r.error)
    decreases |parts|
  {
    if |parts| == 0 then Ok([])
    else
      var head := ParseInt(parts[0]);
      if head.Err? then
        assert FailsFirstAt(parts, 0);
        assert RejectsFirst(parts, head.error);
        Err(head.error)
      else
        var tail := ParseComponents(parts[1..]);
        if tail.Err? then
          FailureAfterHead(parts, tail.error);
          Err(tail.error)
        else
          SuccessAfterHead(parts, head.value, tail.value);
          Ok([head.value] + tail.value)
  }

  /** A first failure in the rest, after a head that parses, is the first
      failure of the whole. */
  lemma FailureAfterHead(parts: seq<string>, e: PyError)
    requires |parts| > 0 && ParseInt(parts[0]).Ok?
    requires RejectsFirst(parts[1..], e)
    ensures RejectsFirst(parts, e)
  {
    var rest := parts[1..];
    var i :| FailsFirstAt(rest, i) && ParseInt(rest[i]) == Err(e);
    assert parts[i + 1] == rest[i];
    forall j | 0 <= j < i + 1 ensures ParseInt(parts[j]).Ok? {
      if j > 0 {
        assert parts[j] == rest[j - 1];
        assert ParseInt(rest[j - 1]).Ok?;
      }
    }
    assert FailsFirstAt(parts, i + 1);
  }

  /** A head that parses followed by a rest that parses. */
  lemma SuccessAfterHead(parts: seq<string>, head: int, tail: VersionTuple)
    requires |parts| > 0 && ParseInt(parts[0]) == Ok(head)
    requires |tail| == |parts| - 1
    requires forall i :: 0 <= i < |parts| - 1 ==> ParseInt(parts[1..][i]) == Ok(tail[i])
    ensures forall i :: 0 <= i < |parts| ==> ParseInt(parts[i]) == Ok(([head] + tail)[i])
  {
    forall i | 0 <= i < |parts| ensures ParseInt(parts[i]) == Ok(([head] + tail)[i]) {
      if i > 0 {
        assert parts[i] == parts[1..][i - 1];
      }
    }
  }

  /** The third `-`-separated segment of the version text, with every
      leading `v` removed. */
  function ReleaseText(s: string): string
    requires |Split(s, '-')| >= 3
  {
    LStrip(Split(s, '-')[2], 'v')
  }

  /** `TiDBVersion.match`. Text with fewer than three `-`-separated segments
      does not match and leaves the state alone. Otherwise the dot-separated
      parts of the release text become the new tuple, however many there are;
      segments after the third are ignored; a part that is not an integer
      raises `ValueError` from `int` before the state is touched. */
  function Match(st: TiDBVersion, s: string): (r: Result<MatchOutcome>)
    ensures |Split(s, '-')| < 3 <==> r == Ok(MatchOutcome(false, st))
    ensures |Split(s, '-')| >= 3 && r.Ok? ==> r.value.matched
    ensures |Split(s, '-')| >= 3 ==> (r.Ok? <==> AllParse(Split(ReleaseText(s), '.')))
    ensures r.Ok? && r.value.matched ==>
      var parts := Split(ReleaseText(s), '.');
      && |r.value.state.version| == |parts|
      && forall i :: 0 <= i < |parts| ==> ParseInt(parts[i]) == Ok(r.value.state.version[i])
    ensures r.Err? ==> |Split(s, '-')| >= 3 && RejectsFirst(Split(ReleaseText(s), '.'), r.error)
  {
    var segments := Split(s, '-');
    if |segments| < 3 then Ok(MatchOutcome(false, st))
    else
      var parts := Split(LStrip(segments[2], 'v'), '.');
      var version :- ParseComponents(parts);
      Ok(MatchOutcome(true, TiDBVersion(version)))
  }

  /** The decimal text of each component. */
  function ComponentTexts(comps: seq<nat>): (r: seq<string>)
    ensures |r| == |comps| && forall i :: 0 <= i < |comps| ==> r[i] == NatToString(comps[i])
  {
    seq(|comps|, i requires 0 <= i < |comps| => NatToString(comps[i]))
  }

  /** Server version text of the documented shape
      `<upstream>-<vendor>-v<c1>.<c2>...[-<suffix>]`; `vs` is the number of
      `v` characters before the release number. */
  function VersionText(upstream: string, vendor: string, vs: nat, comps: seq<nat>, suffix: Option<string>): string {
    upstream + "-" + vendor + "-" + Repeat('v', vs) + Join(ComponentTexts(comps), ".")
      + (match suffix case None => "" case Some(t) => "-" + t)
  }

  lemma {:induction false} ParseComponentTexts(comps: seq<nat>)
    ensures ParseComponents(ComponentTexts(comps)) == Ok(comps)
    decreases |comps|
  {
    if |comps| > 0 {
      var texts := ComponentTexts(comps);
      ComponentTextsTail(comps);
      ParseComponentTexts(comps[1..]);
      ParseIntRoundTrip(comps[0]);
      ParseComponentsCons(texts, comps[0], comps[1..]);
      assert comps == [comps[0]] + comps[1..];
    }
  }

  lemma ComponentTextsTail(comps: seq<nat>)
    requires |comps| > 0
    ensures ComponentTexts(comps)[1..] == ComponentTexts(comps[1..])
    ensures ComponentTexts(comps)[0] == IntToString(comps[0])
  {
  }

  /** The step of `ParseComponents` on a head that parses and a rest that
      parses. */
  lemma ParseComponentsCons(parts: seq<string>, head: int, tail: VersionTuple)
    requires |parts| > 0 && ParseInt(parts[0]) == Ok(head)
    requires ParseComponents(parts[1..]) == Ok(tail)
    ensures ParseComponents(parts) == Ok([head] + tail)
  {
  }

  lemma NoDotInComponents(comps: seq<nat>)
    ensures forall i :: 0 <= i < |comps| ==> '.' !in ComponentTexts(comps)[i]
  {
    forall i | 0 <= i < |comps| ensures '.' !in ComponentTexts(comps)[i] {
      var t := NatToString(comps[i]);
      assert forall k :: 0 <= k < |t| ==> t[k] != '.' by {
        forall k | 0 <= k < |t| ensures t[k] != '.' {
          assert IsDigit(t[k]);
        }
      }
    }
  }

  /** Text made of digits and dots only. */
  predicate DottedDigits(s: string) {
    forall k :: 0 <= k < |s| ==> s[k] == '.' || IsDigit(s[k])
  }

  lemma DottedDigitsConcat(a: string, b: string)
    requires DottedDigits(a) && DottedDigits(b)
    ensures DottedDigits(a + b)
  {
    forall k | 0 <= k < |a + b| ensures (a + b)[k] == '.' || IsDigit((a + b)[k]) {
      if k >= |a| { assert (a + b)[k] == b[k - |a|]; }
    }
  }

  lemma NoDashInRelease(vs: nat, j: string)
    requires DottedDigits(j)
    ensures '-' !in Repeat('v', vs) + j
  {
    var t := Repeat('v', vs) + j;
    forall k | 0 <= k < |t| ensures t[k] != '-' {
      if k >= vs { assert t[k] == j[k - vs]; }
    }
  }

  lemma {:induction false} JoinedComponentsChars(comps: seq<nat>)
    ensures DottedDigits(Join(ComponentTexts(comps), "."))
    decreases |comps|
  {
    var texts := ComponentTexts(comps);
    if |comps| >= 1 {
      assert DottedDigits(texts[0]) by {
        assert AllDigits(NatToString(comps[0]));
      }
    }
    if |comps| > 1 {
      JoinedComponentsChars(comps[1..]);
      assert texts[1..] == ComponentTexts(comps[1..]);
      assert DottedDigits(".");
      DottedDigitsConcat(texts[0], ".");
      DottedDigitsConcat(texts[0] + ".", Join(texts[1..], "."));
    }
  }

  /** Matching the text of any release number, after any upstream version
      and vendor tag and before any build suffix, yields exactly that
      release number, with as many components as it has. */
  lemma MatchVersionText(st: TiDBVersion, upstream: string, vendor: string, vs: nat, comps: seq<nat>, suffix: Option<string>)
    requires '-' !in upstream && '-' !in vendor && |comps| >= 1
    ensures Match(st, VersionText(upstream, vendor, vs, comps, suffix)) == Ok(MatchOutcome(true, TiDBVersion(comps)))
  {
    var texts := ComponentTexts(comps);
    var j := Join(texts, ".");
    var release := Repeat('v', vs) + j;
    var tail := match suffix case None => "" case Some(t) => "-" + t;
    var s := VersionText(upstream, vendor, vs, comps, suffix);
    JoinedComponentsChars(comps);
    NoDashInRelease(vs, j);
    var releaseSegments := match suffix case None => [release] case Some(t) => [release] + Split(t, '-');
    assert Split(release + tail, '-') == releaseSegments by {
      match suffix
      case None =>
        assert release + tail == release;
        SplitWithoutSeparator(release, '-');
      case Some(t) =>
        assert release + tail == release + ['-'] + t;
        SplitAtFirstSeparator(release, t, '-');
    }
    assert s == upstream + "-" + (vendor + "-" + (release + tail));
    SplitAtFirstSeparator(upstream, vendor + "-" + (release + tail), '-');
    SplitAtFirstSeparator(vendor, release + tail, '-');
    assert Split(s, '-')[2] == release;
    assert texts[0] == NatToString(comps[0]);
    LStripRepeat('v', vs, j);
    NoDotInComponents(comps);
    SplitJoin(texts, '.');
    ParseComponentTexts(comps);
  }

  lemma SplitThree(upstream: string, vendor: string, release: string)
    requires '-' !in upstream && '-' !in vendor && '-' !in release
    ensures Split(upstream + "-" + vendor + "-" + release, '-') == [upstream, vendor, release]
  {
    assert upstream + "-" + vendor + "-" + release == upstream + ['-'] + (vendor + ['-'] + release);
    SplitAtFirstSeparator(upstream, vendor + ['-'] + release, '-');
    SplitAtFirstSeparator(vendor, release, '-');
    SplitWithoutSeparator(release, '-');
  }

  /** The first shape quoted beside `TiDBVersion`: a build suffix. */
  lemma MatchBuildSuffixExample()
    ensures Match(Fresh, "5.7.25-TiDB-v5.1.0-64-gfb0eaf7b4") == Ok(MatchOutcome(true, TiDBVersion([5, 1, 0])))
  {
    BuildSuffixText();
    MatchVersionText(Fresh, "5.7.25", "TiDB", 1, [5, 1, 0], Some("64-gfb0eaf7b4"));
  }

  lemma BuildSuffixText()
    ensures VersionText("5.7.25", "TiDB", 1, [5, 1, 0], Some("64-gfb0eaf7b4"))
      == "5.7.25-TiDB-v5.1.0-64-gfb0eaf7b4"
  {
    var release := Repeat('v', 1) + Join(ComponentTexts([5, 1, 0]), ".");
    assert VersionText("5.7.25", "TiDB", 1, [5, 1, 0], Some("64-gfb0eaf7b4"))
      == "5.7.25" + "-" + "TiDB" + "-" + release + ("-" + "64-gfb0eaf7b4");
    BuildReleaseNumberText();
    BuildSuffixPieces();
  }

  lemma BuildSuffixPieces()
    ensures "5.7.25" + "-" + "TiDB" + "-" + "v5.1.0" + ("-" + "64-gfb0eaf7b4")
      == "5.7.25-TiDB-v5.1.0-64-gfb0eaf7b4"
  {
  }

  /** The second shape quoted beside `TiDBVersion`: a pre-release tag and a
      build suffix, both ignored. */
  lemma MatchPreReleaseExample()
    ensures Match(Fresh, "5.7.25-TiDB-v5.2.0-alpha-385-g0f0b06ab5") == Ok(MatchOutcome(true, TiDBVersion([5, 2, 0])))
  {
    PreReleaseText();
    MatchVersionText(Fresh, "5.7.25", "TiDB", 1, [5, 2, 0], Some("alpha-385-g0f0b06ab5"));
  }

  lemma PreReleaseText()
    ensures VersionText("5.7.25", "TiDB", 1, [5, 2, 0], Some("alpha-385-g0f0b06ab5"))
      == "5.7.25-TiDB-v5.2.0-alpha-385-g0f0b06ab5"
  {
    var release := Repeat('v', 1) + Join(ComponentTexts([5, 2, 0]), ".");
    assert VersionText("5.7.25", "TiDB", 1, [5, 2, 0], Some("alpha-385-g0f0b06ab5"))
      == "5.7.25" + "-" + "TiDB" + "-" + release + ("-" + "alpha-385-g0f0b06ab5");
    ReleaseNumberText();
    LiteralPieces();
  }

  lemma LiteralPieces()
    ensures "5.7.25" + "-" + "TiDB" + "-" + "v5.2.0" + ("-" + "alpha-385-g0f0b06ab5")
      == "5.7.25-TiDB-v5.2.0-alpha-385-g0f0b06ab5"
  {
  }

  lemma ReleaseNumberText()
    ensures Repeat('v', 1) + Join(ComponentTexts([5, 2, 0]), ".") == "v5.2.0"
  {
    assert Repeat('v', 1) == "v";
    assert ComponentTexts([5, 2, 0]) == ["5", "2", "0"];
    assert Join(["5", "2", "0"], ".") == "5.2.0";
  }

  lemma BuildReleaseNumberText()
    ensures Repeat('v', 1) + Join(ComponentTexts([5, 1, 0]), ".") == "v5.1.0"
  {
    assert Repeat('v', 1) == "v";
    assert ComponentTexts([5, 1, 0]) == ["5", "1", "0"];
    assert Join(["5", "1", "0"], ".") == "5.1.0";
  }

  /** A release with an empty component raises instead of failing to
      match: a doubled or trailing dot, or a release of only `v`s. */
  lemma MatchEmptyComponentRaises(st: TiDBVersion, upstream: string, vendor: string, release: string)
    requires '-' !in upstream && '-' !in vendor && '-' !in release
    requires "" in Split(LStrip(release, 'v'), '.')
    ensures Match(st, upstream + "-" + vendor + "-" + release).Err?
  {
    SplitThree(upstream, vendor, release);
    var parts := Split(LStrip(release, 'v'), '.');
    var i :| 0 <= i < |parts| && parts[i] == "";
    ParseIntRejects();
    assert ParseInt(parts[i]).Err?;
  }

  /** `v5..0`: the empty middle part is the first one `int` rejects. */
  lemma MatchEmptyPartExample(st: TiDBVersion, upstream: string, vendor: string)
    requires '-' !in upstream && '-' !in vendor
    ensures Match(st, upstream + "-" + vendor + "-" + "v5..0") == Err(InvalidLiteral(""))
  {
    SplitThree(upstream, vendor, "v5..0");
    assert LStrip("v5..0", 'v') == "5..0";
    SplitDoubleDot();
    EmptyMiddleRejectedFirst();
  }

  lemma SplitDoubleDot()
    ensures Split("5..0", '.') == ["5", "", "0"]
  {
    assert "5..0" == "5" + ['.'] + ("" + ['.'] + "0");
    SplitAtFirstSeparator("5", "" + ['.'] + "0", '.');
    SplitAtFirstSeparator("", "0", '.');
    SplitWithoutSeparator("0", '.');
  }

  /** Of `5`, ``, `0`, the empty part is the first that fails. */
  lemma EmptyMiddleRejectedFirst()
    ensures !AllParse(["5", "", "0"])
    ensures forall e :: RejectsFirst(["5", "", "0"], e) ==> e == InvalidLiteral("")
  {
    var parts := ["5", "", "0"];
    FiveParses();
    ParseIntRejects();
    assert ParseInt(parts[1]).Err?;
    forall e | RejectsFirst(parts, e) ensures e == InvalidLiteral("") {
      var i :| FailsFirstAt(parts, i) && ParseInt(parts[i]) == Err(e);
      assert i == 1;
    }
  }

  lemma FiveParses()
    ensures ParseInt("5").Ok?
  {
    StripWithoutSpace("5");
    assert Unsigned("5") == "5";
    assert WellFormedDigits("5") by { assert DigitOrJoiner("5", 0); }
  }

  /** A non-numeric release component raises instead of failing to match. */
  lemma MatchLetterComponentRaises(st: TiDBVersion, upstream: string, vendor: string)
    requires '-' !in upstream && '-' !in vendor
    ensures Match(st, upstream + "-" + vendor + "-" + "x") == Err(InvalidLiteral("x"))
  {
    SplitThree(upstream, vendor, "x");
    assert LStrip("x", 'v') == "x";
    SplitWithoutSeparator("x", '.');
    assert Strip("x") == "x";
    assert !DigitOrJoiner("x", 0);
  }

  /** Of two bad parts, the first is the one reported: `int` is applied in
      order and the first failure ends the match. */
  lemma MatchReportsFirstBadPart(st: TiDBVersion, upstream: string, vendor: string)
    requires '-' !in upstream && '-' !in vendor
    ensures Match(st, upstream + "-" + vendor + "-" + "x.y") == Err(InvalidLiteral("x"))
  {
    SplitThree(upstream, vendor, "x.y");
    assert LStrip("x.y", 'v') == "x.y";
    assert "x.y" == "x" + ['.'] + "y";
    SplitAtFirstSeparator("x", "y", '.');
    SplitWithoutSeparator("y", '.');
    assert Split("x.y", '.') == ["x", "y"];
    assert Strip("x") == "x";
    assert !DigitOrJoiner("x", 0);
  }
}
